=== FILE: README.md ===
# Mint eligibility of the SPEN NFT front end, in Dafny

This project models the client-side logic that decides whether a content item of the SPEN NFT
dApp can be minted, what happens when a user clicks "mint", and how the front end reads the
token ledger back. Every wallet RPC, contract call and `JSON.parse` is an oracle value fixed in
advance, and each piece is a pure function or a short method over one snapshot.

- `Basics`, `Text`, `Json`: shared values. These are JavaScript's truthiness, property reads in
  key-enumeration order, `String(v)`, decimal and hex digits, and ASCII letter case.
- `BigNumber`: `ethers.BigNumber.from(v).toString()`. This is the canonical decimal identity under
  which content ids are compared. It covers numbers, strings and the JSON object ethers writes
  for a BigNumber, with the range and syntax rules that make it throw. It proves the round trip
  through decimal text, the fixed point, and the round trip through the JSON form.
- `Wallet`: `WalletContext.js`. It models `requestAccount`, the `checkNetwork` decision tree with
  its switch-chain and add-chain fallback, the guarded `callContractMethod`, and
  `disconnectAccount`. The gateway's failure value is the JSON value `false`. `SentinelCollides`
  shows that a contract answer of `false` cannot be told apart from a failure.
- `Spen`: the SPEN contract as its test suite pins it down. Ids are sequential, burning keeps the
  total supply, a live content id cannot be minted twice, and it has the minting switch, the
  payment guards and `getMintConfig`.
- `Scans`: two token-ledger scans.
  - The minted-content scan of the mint page skips only the failing id.
  - The owned-NFT listing of the list page drops everything on any failure.
  - The listing page's `loadNFTs`: its mismatch guard, and the spinner that never stops when no
    wallet is injected.
- `Metadata`: the metadata object `mintNFT` builds. It has fallback texts, one attribute per other
  key in key order, the snake_case to Title Case trait type, and `String(v)` of each value.
- `Eligibility`: `updateMintDisabledStates`, the per-item disabled decision and the fresh map it
  builds. Each feature switch comes from its own environment variable.
- `Minting`: `mintNFT`. It runs the ordered precondition chain with one message per failure, then
  the loading marker, the submission, and a `finally` that always clears the marker. The key
  theorem is `EnabledIffChecksPass`. For a connected wallet on a valid network and an item that
  is not loading, the reconciler enables the button exactly when a click would pass every check.
- `LedgerScans`: the scans run against a `Spen` ledger. For URIs written by the mint page, the
  minted set is exactly the canonical ids of the live content ids, 0 included. For URIs that hold
  the id as a plain JSON number, as the test suite writes them, id 0 is never recorded. A mint is
  seen by the next scan and a burn frees the content again. The listing shows exactly the live
  tokens.

The loading marker disables only the item being minted (`index.js:216`). Other items stay
clickable while a mint is pending (`LoadingDisablesOnlyItsItem`, `OtherItemMayMintWhileLoading`).

Content ids come from the registry's `getContentsByContentType` as ethers BigNumbers. The model
keeps the integer value and compares ids by value. The minted set holds each id's decimal text.
The metadata's `contentId` is that BigNumber, so `JSON.stringify` writes it into the token URI as
`{"type":"BigNumber","hex":"0x.."}`. That object is truthy and `BigNumber.from` reads it back, so
the scan records every content the page minted, id 0 included (`SerializedRoundTrip`,
`ScanOfPageLedger`).

## Model

| member | source | states |
|---|---|---|
| BigNumber.CanonicalString | frontend/src/pages/index.js:168 | `BigNumber.from(v).toString()` succeeds for a number strictly inside the safe-integer range and prints that number. A string succeeds only as a signed decimal literal or a `0x` hex literal (lower-case `x`; an upper-case `0X` passes `from` but makes `toString` throw) and prints the value it denotes. An object succeeds only in ethers' JSON form of a BigNumber and prints its value. `null` and booleans throw, and arrays are modelled as a throw (see Left out) |
| BigNumber.FromObject | frontend/src/pages/index.js:168 | a truthy `toHexString` property makes it throw. Otherwise an object whose serialized hex text is a signed `isHexString` literal denotes what that text denotes, and any other object throws |
| BigNumber.HexString | frontend/src/pages/index.js:295 | the hex a BigNumber serializes to starts with a lower-case `0x` and has an even number of digits, at least two |
| BigNumber.HexStringRoundTrip | frontend/src/pages/index.js:295 | reading back the hex text of any id gives that id |
| BigNumber.SerializedRoundTrip | frontend/src/pages/index.js:295 | the JSON form `JSON.stringify` writes for a content id, read back through `BigNumber.from`, gives the id's decimal text, for every id, 0 included |
| BigNumber.CanonInjective | frontend/src/pages/index.js:229 | two content ids have the same canonical string exactly when they are equal, so membership in the minted set identifies content ids |
| BigNumber.FromStringRoundTrip | frontend/src/pages/index.js:168 | reading back the canonical text of any integer gives that integer |
| BigNumber.CanonicalIsFixedPoint | frontend/src/pages/index.js:168 | canonicalising a canonical string changes nothing |
| BigNumber.StoredFormsAgree | frontend/src/pages/index.js:168 | a content id stored in a token URI as a JSON number or as its decimal string yields the same identity as the registry id the mint page looks up |
| BigNumber.CanonicalExamples | frontend/src/pages/index.js:168 | leading zeros are normalised: "007" gives "7" |
| BigNumber.CanonicalNegativeZero | frontend/src/pages/index.js:168 | the sign of zero is dropped: "-0" gives "0" |
| BigNumber.CanonicalHexExample | frontend/src/pages/index.js:168 | a hex literal is read as hex and printed in decimal: "0x1F" gives "31" |
| BigNumber.CanonicalRejects | frontend/src/pages/index.js:168 | the empty string, trailing garbage, an upper-case `0X` prefix ("0X1F"), a number at the safe limit and `true` all make `BigNumber.from(v).toString()` throw |
| Wallet.DisplayName | frontend/src/contexts/WalletContext.js:52 | the chain name sent to the wallet is the configured name with its first character upper-cased and the rest unchanged |
| Wallet.CheckNetwork | frontend/src/contexts/WalletContext.js:31-74 | no wallet: false and the session is untouched. With a wallet the answer always equals the negated mismatch flag and only that flag changes. The expected chain is accepted with no request. A failed network read fails closed. Another chain always requests the switch first. An accepted switch succeeds with that one request. A rejection with any code but 4902 fails with that one request. A 4902 rejection with a configured name adds the chain and succeeds exactly when the add is accepted; without a name it fails. Success means the expected chain, an accepted switch or an accepted add |
| Wallet.UnknownChainIsAdded | frontend/src/contexts/WalletContext.js:46-56 | on an unknown chain that the wallet adds, the switch request is followed by an add request that carries the hex chain id, the configured RPC URL and the capitalised network name, and the check succeeds |
| Wallet.CallContractMethod | frontend/src/contexts/WalletContext.js:76-88 | the method is invoked exactly when the network check passes; a failed check or a thrown call returns the raw `false`; otherwise the method's own value is returned |
| Wallet.SentinelCollides | frontend/src/contexts/WalletContext.js:80-86 | a view method that truly returns `false` gives the caller the same value as a revert and the same value as having no wallet at all |
| Wallet.RequestAccount | frontend/src/contexts/WalletContext.js:16-29 | no wallet: the "MetaMask is not installed" notice opens and nothing else changes. A thrown account request changes nothing. Otherwise the account becomes the first listed one, or none for an empty list, and the mismatch flag and the wallet requests sent (switch, then add) are what the following network check decides |
| Wallet.DisconnectAccount | frontend/src/contexts/WalletContext.js:90-93 | the account and the mismatch flag are cleared, the notice is untouched |
| Wallet.Connected | frontend/src/pages/index.js:243 | a session is connected when it holds an account that is not the empty string, which is falsy |
| Wallet.DisconnectUndoesRequest | frontend/src/contexts/WalletContext.js:16-29 | connecting changes only the account and the mismatch flag, so a disconnect afterwards gives what a disconnect alone gives; a wallet listing a non-empty first account leaves the session connected |
| Wallet.DisconnectedIsNotConnected | frontend/src/contexts/WalletContext.js:90-93 | after a disconnect the session is not connected and has no mismatch, and disconnecting again changes nothing |
| Spen.OwnerOf | test/SPEN.test.js:121-128 | `ownerOf` answers exactly for live tokens, with the owner recorded at mint, and otherwise reverts with "ERC721: invalid token ID" |
| Spen.TokenURI | test/SPEN.test.js:38-40 | `tokenURI` answers exactly for live tokens, with the URI recorded at mint, and otherwise reverts with "ERC721: invalid token ID" |
| Spen.MintNFT | test/SPEN.test.js:23-36 | a mint succeeds exactly when minting is enabled, the content id has no live token and the payment passes. Disabled minting and a duplicate content id revert with their reasons. The new token's id is the old total supply and the ledger gains exactly one token with the given owner, URI and content id, so the supply grows by one, the URI and owner read back as given, and earlier tokens and the configuration are unchanged |
| Spen.Burn | test/SPEN.test.js:121-128 | only the owner of a live token may burn it (approved operators are not modelled); afterwards the id no longer exists, the total supply is unchanged and every other slot is as before |
| Spen.GetMintConfig | test/SPEN.test.js:101-119 | the configuration echoes the switch, price and payment token; a non-zero price with a token set is not free; the symbol is "ETH" for the zero address and the token's own symbol otherwise |
| Spen.DeployValid | test/SPEN.test.js:72-78 | a fresh contract has no token and satisfies the one-live-token-per-content invariant |
| Spen.MintPreservesValid | test/SPEN.test.js:66-70 | a successful mint keeps every content id held by at most one live token |
| Spen.BurnPreservesValid | test/SPEN.test.js:121-128 | a burn keeps every content id held by at most one live token |
| Spen.DuplicateContentReverts | test/SPEN.test.js:66-70 | minting a content id right after it was minted reverts with "Content has already been minted", whoever mints and whatever is paid |
| Spen.BurnFreesContent | test/SPEN.test.js:187-204 | after a burn both reads of the burned id revert, and the same content can be minted again under the next id, not the burned one |
| Spen.EtherPriceGuard | test/SPEN.test.js:142-159 | after the owner sets a non-zero price and ether as the payment token, any payment below the price reverts with "Insufficient funds to mint" and any payment of at least the price mints |
| Spen.MintConfigScenario | test/SPEN.test.js:101-119 | after setting a 20 ether price, an ERC20 token and enabled minting, the configuration reports all three, is not free and names the token's symbol; resetting the token to the zero address reports "ETH" |
| Spen.RemintScenario | test/SPEN.test.js:195-204 | mint, burn and mint the same content again: ids 0 and 1, the total supply counts both, the burned id reverts and the second URI reads back |
| Scans.IsValidTokenId | frontend/src/pages/index.js:182-189 | a token id is valid exactly when `ownerOf` answers instead of throwing; the list page's copy at nft-list.js:22-29 is the same |
| Scans.LoopBound | frontend/src/pages/index.js:162 | the loop runs the supply's count when it is a positive number, once for `true`, and not at all for `false`, `null`, an object or a non-positive number. A string bound is converted to a number first (a leading minus never runs the loop), and an array is printed with `String` and then converted |
| Scans.StringBound | frontend/src/pages/index.js:162 | `Number(s)` as a loop bound: decimal digits, optionally after `+`, give their value; `0x` or `0X` and hex digits give the hex value; the empty string and a leading minus sign run no iteration; any other string is NaN and runs no iteration, so a positive bound comes only from those three forms |
| Scans.TextualSupplyBound | frontend/src/pages/index.js:162 | a supply given as decimal text, or as a one-element array of the number, runs exactly as many iterations as the number |
| Scans.MintedContribution | frontend/src/pages/index.js:163-175 | an id contributes only when it is live and its URI is readable. A URI that does not parse contributes nothing. For a parsed URI, a missing or falsy `contentId` (`null`, `false`, `0`, `""`) contributes nothing, and a truthy one contributes its `BigNumber.from` text, or nothing when that throws. Every contribution is the decimal text of an integer |
| Scans.FetchMintedContents | frontend/src/pages/index.js:151-180 | with no wallet or a `false` supply the previous set is kept. Otherwise the result is exactly the set of canonical content ids contributed by some id below the supply, and the previous set plays no part |
| Scans.LiveIds | frontend/src/pages/nft-list.js:43-51 | the ids below the bound whose ownership probe succeeds, strictly increasing, and every such id is included |
| Scans.IsOwnedByUser | frontend/src/pages/nft-list.js:55 | owner and user match exactly when they have the same length and agree character by character after ASCII lower-casing |
| Scans.Listing | frontend/src/pages/nft-list.js:31-63 | a `false` supply gives `[]`, and so does any unreadable or unparsable live URI. When every read succeeds there is one entry per live id, in id order. Every entry is a live id below the supply with its owner, its parsed URI and its ownership flag. An empty result means either there is no live token or some read on the way threw |
| Scans.CollectLiveTokens | frontend/src/pages/nft-list.js:43-51 | the first loop succeeds exactly when every live id's URI is readable, and then yields one triple of id, URI and owner per live id, in order |
| Scans.ParseLiveTokens | frontend/src/pages/nft-list.js:53-56 | the parse step succeeds exactly when every URI parses and a user is present whenever there is an entry; then each entry holds the parsed metadata, the owner and the case-insensitive ownership flag |
| Scans.FetchNFTs | frontend/src/pages/nft-list.js:31-63 | with no wallet the call rejects, because the provider is built before the `try`. Otherwise the loop-and-parse procedure returns exactly the listing, including `[]` on a gateway failure or on any read or parse failure |
| Scans.LoadNFTs | frontend/src/pages/nft-list.js:65-76 | under a mismatch nothing is fetched, the shown entries stay and the spinner stops. With no wallet the spinner starts and never stops and the shown entries stay. Otherwise the entries become the listing and the spinner stops |
| Metadata.TraitTypeShape | frontend/src/pages/index.js:292 | the trait type keeps the key's length, contains no underscore, has a space exactly where the key had an underscore, and otherwise keeps or upper-cases each character |
| Metadata.TraitTypeIdempotent | frontend/src/pages/index.js:292 | applying the transform to a trait type gives it back unchanged |
| Metadata.TraitTypeExamples | frontend/src/pages/index.js:292 | "foo" gives "Foo", "snake_case" gives "Snake Case", and "2nd_place" gives "2nd Place" because a digit starts the word |
| Metadata.OtherEntries | frontend/src/pages/index.js:289-290 | the attribute entries are exactly the payload entries whose key is not name, description or image |
| Metadata.OtherEntriesDistributes | frontend/src/pages/index.js:289-290 | filtering commutes with concatenation, so attributes keep the payload's key order |
| Metadata.AttributeValue | frontend/src/pages/index.js:293 | a falsy value becomes the empty string. A string is kept as is. Any truthy value becomes its JavaScript `String(v)`: a non-zero number its decimal text below 10^21 in magnitude and its exponential form from there on, `true` "true", an array its elements joined by commas, and an object "[object Object]" |
| Metadata.LargeAttributeIsExponential | frontend/src/pages/index.js:293 | a payload amount of 1000 ether in wei becomes the trait value "1e+21" |
| Json.ScaledExponential | frontend/src/pages/index.js:293 | `String(n * 10^k)` at or beyond 10^21, with `n` not ending in 0, prints the digits of `n` with a point after the first, then `e+` and the number of digits after the first |
| Json.FirstExponential | frontend/src/pages/index.js:293 | `String(1e21)` is "1e+21" |
| Json.FractionalExponential | frontend/src/pages/index.js:293 | `String(1.5e21)` is "1.5e+21" |
| Metadata.BuildMetadata | frontend/src/pages/index.js:283-296 | the content id is echoed. Name, description and image are each the payload's truthy value, or their fallback literal exactly when that value is missing or falsy. There is one attribute per other entry, in order, with the Title Case key and the stringified value, and no trait type contains an underscore |
| Metadata.BuildMetadataExample | frontend/src/pages/index.js:283-296 | `{"name":"A","foo":"bar"}` keeps its name, falls back for description and image, and yields the single attribute Foo = bar |
| Metadata.FalsyPayloadFallsBack | frontend/src/pages/index.js:283 | a payload that parses to a falsy value gives the all-fallback metadata with no attributes |
| Eligibility.FlagFromEnv | frontend/src/pages/index.js:39-41 | a switch is on exactly when its variable is set and spells "true" in any letter case |
| Eligibility.FlagExamples | frontend/src/pages/index.js:39-41 | "true", "TRUE" and "True" switch a check on; an unset variable, "1", "yes", " true" and "false" leave it off |
| Eligibility.ContentProtected | frontend/src/pages/index.js:135-148 | content counts as protected exactly when a wallet is present and the registry answers `true`; a throw or no wallet counts as unprotected |
| Eligibility.IsDisabled | frontend/src/pages/index.js:215-233 | an item is disabled exactly when it is the loading item, or the network mismatches, or an enabled check fails: contract unprotected, content unprotected, or canonical id already minted |
| Eligibility.UpdateMintDisabledStates | frontend/src/pages/index.js:211-240 | the recomputed map has exactly the content ids as keys and holds each item's decision |
| Eligibility.ButtonDisabled | frontend/src/pages/index.js:368 | a key the map lacks renders as enabled, and a present key renders as its value |
| Eligibility.DisabledMapIsDetermined | frontend/src/pages/index.js:213-236 | two maps that both satisfy the recompute's contract for one snapshot are equal |
| Eligibility.RenderedButtonMatchesDecision | frontend/src/pages/index.js:368 | every rendered item's button shows exactly its decision |
| Eligibility.NoChecksEnablesAllButLoading | frontend/src/pages/index.js:216 | with all checks off and no mismatch, exactly the loading item is disabled |
| Eligibility.LoadingDisablesOnlyItsItem | frontend/src/pages/index.js:216 | the loading marker disables its own item, and every other item's decision is as if nothing were loading |
| Eligibility.MismatchDisablesEverything | frontend/src/pages/index.js:216 | a network mismatch disables every item |
| Eligibility.MintedStaysDisabled | frontend/src/pages/index.js:229-230 | with the minted check on, an item whose canonical id is in the minted set is disabled |
| Minting.CheckPreconditions | frontend/src/pages/index.js:242-278 | the checks stop in source order, each with its own message: not connected, then network invalid, then contract unprotected, then content unprotected, then already minted. A content-protection or already-minted stop happens only when that check is enabled and fails. A click proceeds exactly when the wallet is connected, the network check passes, and every enabled check holds |
| Minting.TryMint | frontend/src/pages/index.js:282-303 | a payload that does not parse fails with the parser's message and no transaction. A missing mint configuration fails with the `null`-read TypeError and no transaction. Otherwise a transaction is requested for the loaded price. It goes to the connected account with the built metadata and the content id, and its outcome is the submission's |
| Minting.MintNFT | frontend/src/pages/index.js:242-324 | a stopped click shows its message with no transaction, leaving the loading marker and the minted set alone. A click that proceeds requests exactly the attempt's transaction, sets the marker to the item and then clears it on every path. Success adds exactly the canonical id to the minted set and shows "NFT successfully minted!". A user rejection (4001 or ACTION_REJECTED) is silent. Any other error shows "Error minting NFT: " with its message, and the minted set is unchanged |
| Minting.EnabledIffChecksPass | frontend/src/pages/index.js:216-278 | for a connected wallet on a valid network and an item that is not loading, the reconciler enables the button exactly when the precondition chain reaches submission, given the same switches, protection answers and minted set |
| Minting.StoppedItemsAreShownDisabled | frontend/src/pages/index.js:216-278 | any item whose checks would stop a mint is shown disabled, whatever the loading marker and the mismatch flag |
| Minting.MintedItemIsDisabledAfterwards | frontend/src/pages/index.js:309 | after a successful mint with the minted check on, the item is disabled on the next recompute and a second click stops at a check |
| Minting.OtherItemMayMintWhileLoading | frontend/src/pages/index.js:280-323 | a mint can start while another item is loading; it sets its own marker and clears it at the end |
| Minting.HandleDisconnect | frontend/src/pages/index.js:66-70 | the Disconnect button as intended: the session is no longer connected and has no mismatch, and nothing else on the page changes |
| Minting.DisconnectButtonLeavesMintOpen | frontend/src/pages/index.js:66-70 | as written, the Disconnect button leaves a connected user connected, and a click that would have minted still requests its transaction |
| Minting.DisconnectStopsMint | frontend/src/pages/index.js:243-247 | after the intended disconnect, any click shows the connect-wallet message, with no loading marker, no transaction and an unchanged minted set |
| Minting.UnprotectedContractStopsMint | frontend/src/pages/index.js:257-261 | with the contract check on and the contract unprotected, a connected user on a valid network gets the protected-mode message, no transaction and an unchanged loading marker |
| LedgerScans.Reads | frontend/src/pages/nft-list.js:22-29 | against the ledger, the ownership probe succeeds exactly for live tokens |
| LedgerScans.ScanFindsLiveEmbeddedIds | frontend/src/pages/index.js:155-177 | scanning the ledger over its total supply finds exactly the accepted content ids embedded in live tokens' URIs; burned slots contribute nothing |
| LedgerScans.NumericTokenEmbeds | frontend/src/pages/index.js:167-168 | a token whose URI holds its content id as a plain JSON number contributes that id's canonical string, except content id 0, which is falsy and contributes nothing |
| LedgerScans.ScanOfNumericLedger | frontend/src/pages/index.js:167-168 | when every URI holds its content id as a plain JSON number, a content id's canonical string is in the minted set exactly when the id is not 0 and a live token holds it |
| LedgerScans.PageTokenEmbeds | frontend/src/pages/index.js:167-168 | a token whose URI holds the serialized BigNumber the mint page writes contributes its content id's canonical string, 0 included |
| LedgerScans.ScanOfPageLedger | frontend/src/pages/index.js:155-177 | for URIs written by the mint page, a content id's canonical string is in the minted set exactly when a live token holds it |
| LedgerScans.MintIsSeenByScan | frontend/src/pages/index.js:155-177 | after a mint of a URI written by the mint page, the next scan records that content |
| LedgerScans.BurnIsSeenByScan | test/SPEN.test.js:195-204 | burning a token removes its content from the next scan, so the item becomes mintable again |
| LedgerScans.ListingOfLedger | frontend/src/pages/nft-list.js:43-56 | when every live URI parses, the listing has an entry for every live token and only for live tokens, each with the token's owner and the case-insensitive ownership flag |
| LedgerScans.UnreadableUriEmptiesListing | frontend/src/pages/nft-list.js:53-62 | one live token whose URI does not parse empties the whole listing, while the minted-content scan loses only that token |

## Left out

- Metadata.AttributeValue: from 10^21 on, the exponential form is printed from the integer's exact digits. JavaScript prints the shortest digits that identify the nearest double, which differ for integers that are not exactly doubles (beyond 2^53 most are not); JSON numbers here are unbounded integers.
- Scans.LoopBound: `Number(s)` of a string with surrounding whitespace, a fraction, an exponent, `Infinity`, or a `0o` / `0b` prefix is not modelled; such strings run no iteration here. A real `totalSupply` answer is a BigNumber or `false`, so no call reaches these inputs.
- React effects, their scheduling and races between them: each recompute is a function of one snapshot.
- Rendering, dialogs, scroll handlers, the header and footer, the theme and the app wrapper: user interface only.
- The transaction URL (index.js:306) and the total-supply refresh after a mint (index.js:311-312): display only. If that refresh's network check fails, `false.toNumber()` throws inside the `try`. The status then becomes "Error minting NFT: ..." even though the mint went through and the minted set was already updated. This model does not show that.
- `checkProtectionStatus` (index.js:125-132): an unguarded read, so the contract-protected bit is an input.
- `fetchMintConfiguration` (index.js:105-123): it reads `getMintConfig` through `callContractMethod`, and a `false` answer or no wallet leaves the configuration `null`. The loaded price is an input, with `None` for that case.
- `formatEther` / `parseEther`: the price is kept as a natural number of wei.
- `fetchContents.js`, `scripts/deploy.ts` and `scripts/manage.ts`: I/O and deployment plumbing.
- ERC20 balances, `withdraw`, `withdrawToken` and `receiveToken`: the token contract is not part of this model. Whether the ERC20 transfer is covered is a boolean input.
- Spen.MintNFT: the order of the enabled, duplicate and payment guards is not fixed by the tests; the model checks them in that order.
- Spen.GetMintConfig: only the cases the tests fix are stated. A non-zero price with a token set is not free, and the zero address gives "ETH". The model's other `isFreeMint` answers are not promised.
- BigNumber.CanonicalString: arrays and objects with a `length` property, which ethers reads as byte arrays, are modelled as a throw, and non-integer numbers are not modelled; every JSON number here is an integer.
- Spen.Burn: approvals are not modelled, so an approved operator's burn is not covered; only the owner's burn succeeds here.
- Wallet.CheckNetwork: a non-numeric `NEXT_PUBLIC_CHAIN_ID` (parsed to NaN) is not modelled; the expected chain id is a natural number.
- Letter case uses ASCII only: `toUpperCase` / `toLowerCase` on other characters are the identity here.
- `JSON.parse` is an oracle from text to a JSON value. `JSON.stringify` of the metadata is not modelled as text: the mint transaction carries the metadata value itself, and `LedgerScans.PageToken` states what parsing the stored text yields for `contentId`.
- Content ids are compared by value. The source compares `mintLoadingId === content.id` by BigNumber object identity, so two registry entries with equal ids are distinct items there; here they are the same.

## Findings

| source | as written | input that shows it | evidently intended | confidence | as-written member | corrected member |
|---|---|---|---|---|---|---|
| frontend/src/pages/index.js:66-70 | `handleDisconnect` calls `disconnectAccount()`, a name the page never reads from `useWallet()` (index.js:17), so the call throws a ReferenceError and the wallet session is untouched | a connected user on the right network presses Disconnect, then clicks Mint on a mintable item: the transaction is still requested | the button runs the wallet's `disconnectAccount`, after which a click stops at "Please connect your wallet to mint an NFT." | high, not executed | Minting.DisconnectButtonLeavesMintOpen | Minting.DisconnectStopsMint |

=== FILE: basics.dfy ===
/** Shared vocabulary of the minting front end: optional values, the
    identifier types, and the shape of a JavaScript error object as the
    wallet and the contract library report it. */
module Basics {

  /** JavaScript's `null`/`undefined` versus a present value. */
  datatype Option<+T> = None | Some(value: T) {
    function GetOr(default: T): T {
      match this
      case Some(v) => v
      case None => default
    }
  }

  /** A content id of the core registry: an unsigned 256-bit integer that
      ethers hands to the page as a BigNumber. */
  type ContentId = nat

  /** An Ethereum address in its textual (hex) form. */
  type Address = string

  /** The `code` property of a thrown error: a number (wallet RPC errors such
      as 4001 or 4902), a string (ethers' codes such as "ACTION_REJECTED"),
      or absent. */
  datatype ErrCode = NumCode(n: int) | StrCode(s: string) | NoCode

  /** A thrown error: its `code` and its `message` (absent reads as the
      text "undefined" when interpolated into a template string). */
  datatype JsError = JsError(code: ErrCode, message: Option<string>) {
    function MessageText(): string {
      message.GetOr("undefined")
    }
  }
}

=== FILE: bignumber.dfy ===
/** `ethers.BigNumber.from(v).toString()`, the canonical decimal identity the
    front end uses for content ids, both for ids the registry returns and for
    the `contentId` field read back from a token's metadata. */
module BigNumber {
  import opened Basics
  import opened Text
  import opened Json

  /** `0x1fffffffffffff`: a JavaScript number at or beyond this magnitude is
      refused by `BigNumber.from` as an overflow. */
  const MaxSafe: int := 0x1f_ffff_ffff_ffff

  /** `0x` followed by at least one hex digit of either case. `from` also
      lets an upper-case `0X` through its case-insensitive pattern, but
      `toHex` then prefixes it once more (`0x0X...`), and `toString` throws
      on the `X`; such a string denotes nothing here. */
  predicate IsHexLiteral(body: string) {
    |body| >= 3 && body[0] == '0' && body[1] == 'x' && AllDigitsIn(body[2..], 16)
  }

  predicate IsDecimalLiteral(body: string) {
    |body| >= 1 && AllDigitsIn(body, 10)
  }

  /** The magnitude an unsigned BigNumber string denotes, or `None` for an
      "invalid BigNumber string". */
  function Magnitude(body: string): Option<nat> {
    if IsHexLiteral(body) then Some(ValueOf(body[2..], 16))
    else if IsDecimalLiteral(body) then Some(ValueOf(body, 10))
    else None
  }

  /** The integer a BigNumber string denotes: an optional `-` followed by a
      hex or decimal literal. */
  function FromString(s: string): Option<int> {
    if |s| > 0 && s[0] == '-' then
      match Magnitude(s[1..])
      case Some(m) => Some(-(m as int))
      case None => None
    else
      match Magnitude(s)
      case Some(m) => Some(m)
      case None => None
  }

  /** ethers' `isHexString(h)`: `0x` with a lower-case `x`, then hex digits. */
  predicate IsStrictHex(h: string) {
    |h| >= 2 && h[0] == '0' && h[1] == 'x' && AllDigitsIn(h[2..], 16)
  }

  /** `isHexString(h)`, or a minus sign followed by such a string. */
  predicate IsSignedStrictHex(h: string) {
    IsStrictHex(h) || (|h| > 0 && h[0] == '-' && IsStrictHex(h[1..]))
  }

  /** The hex text carried by a JSON object that ethers reads as a
      BigNumber: the legacy `_hex` property unless it is missing or null,
      otherwise `hex` when `type` is "BigNumber"; it must be a string. */
  function SerializedHex(v: Json): Option<string> {
    var legacy := Get(v, "_hex");
    var hex := if legacy.Some? && !legacy.value.JNull? then legacy
               else if Get(v, "type") == Some(JStr("BigNumber")) then Get(v, "hex")
               else None;
    if hex.Some? && hex.value.JStr? then Some(hex.value.s) else None
  }

  /** `BigNumber.from` of a parsed JSON object. A truthy `toHexString`
      property is called and, not being a function, throws; otherwise the
      serialized hex must be a signed `isHexString` literal. */
  function FromObject(v: Json): (r: Option<int>)
    ensures r.Some? ==> SerializedHex(v).Some? && FromString(SerializedHex(v).value) == r
    ensures Get(v, "toHexString").Some? && Truthy(Get(v, "toHexString").value) ==> r.None?
    ensures (!(Get(v, "toHexString").Some? && Truthy(Get(v, "toHexString").value))
             && SerializedHex(v).Some? && IsSignedStrictHex(SerializedHex(v).value))
            ==> r == FromString(SerializedHex(v).value)
    ensures SerializedHex(v).Some? && !IsSignedStrictHex(SerializedHex(v).value) ==> r.None?
    ensures SerializedHex(v).None? ==> r.None?
  {
    var hook := Get(v, "toHexString");
    if hook.Some? && Truthy(hook.value) then None
    else match SerializedHex(v)
      case None => None
      case Some(h) =>
        if IsSignedStrictHex(h) then FromString(h)
        else None
  }

  /** `BigNumber.from(v).toString()`; `None` stands for the throw. Numbers must
      be strictly inside the safe-integer range; strings must be signed hex
      or decimal literals; objects must be ethers' JSON form of a BigNumber;
      `null`, booleans and arrays throw. An accepted value prints as the
      decimal text of the integer it denotes. */
  function CanonicalString(v: Json): (r: Option<string>)
    ensures v.JNum? ==> (r.Some? <==> -MaxSafe < v.n < MaxSafe)
    ensures v.JNum? && r.Some? ==> r.value == IntToString(v.n)
    ensures v.JStr? ==> (r.Some? <==> FromString(v.s).Some?)
    ensures v.JStr? && r.Some? ==> r.value == IntToString(FromString(v.s).value)
    ensures v.JObj? ==> (r.Some? <==> FromObject(v).Some?)
    ensures v.JObj? && r.Some? ==> r.value == IntToString(FromObject(v).value)
    ensures v.JNull? || v.JBool? || v.JArr? ==> r.None?
    ensures r.Some? ==> exists i: int :: r.value == IntToString(i)
  {
    match v
    case JNum(n) => if -MaxSafe < n < MaxSafe then Some(IntToString(n)) else None
    case JStr(s) =>
      (match FromString(s)
       case Some(i) => Some(IntToString(i))
       case None => None)
    case JObj(_) =>
      (match FromObject(v)
       case Some(i) => Some(IntToString(i))
       case None => None)
    case _ => None
  }

  /** ethers' `toHexString()` of a non-negative value: lower-case hex digits,
      padded with one leading zero to an even count. */
  function HexString(n: nat): (h: string)
    ensures IsStrictHex(h) && |h| >= 4 && |h| % 2 == 0
  {
    var d := HexOf(n);
    assert forall i :: 1 <= i < |d| + 1 ==> ("0" + d)[i] == d[i - 1];
    "0x" + (if |d| % 2 == 1 then "0" + d else d)
  }

  /** What `JSON.stringify` writes for a BigNumber (its `toJSON`). */
  function SerializedForm(n: nat): Json {
    JObj([("type", JStr("BigNumber")), ("hex", JStr(HexString(n)))])
  }

  /** Reading back the hex text ethers prints gives the value. */
  lemma HexStringRoundTrip(n: nat)
    ensures FromString(HexString(n)) == Some(n)
  {
    var d := HexOf(n);
    var h := HexString(n);
    DigitsRoundTrip(n, 16);
    if |d| % 2 == 1 {
      LeadingZeroValue(d, 16);
      assert h[2..] == "0" + d;
    } else {
      assert h[2..] == d;
    }
    assert IsHexLiteral(h);
  }

  /** A BigNumber written into JSON by the page and read back through
      `BigNumber.from` keeps its identity, whatever its size (0 included). */
  lemma SerializedRoundTrip(n: nat)
    ensures CanonicalString(SerializedForm(n)) == Some(Canon(n))
  {
    var v := SerializedForm(n);
    assert Get(v, "toHexString").None?;
    assert Get(v, "_hex").None?;
    assert Get(v, "type") == Some(JStr("BigNumber"));
    assert Get(v, "hex") == Some(JStr(HexString(n)));
    HexStringRoundTrip(n);
  }

  /** The identity of a registry content id, `BigNumber.from(id).toString()`. */
  function Canon(id: ContentId): string {
    DecimalOf(id)
  }

  /** Distinct content ids have distinct canonical strings, so a set of
      canonical strings identifies content ids exactly. */
  lemma CanonInjective(a: ContentId, b: ContentId)
    ensures Canon(a) == Canon(b) <==> a == b
  {
    DigitsInjective(a, b, 10);
  }

  /** Parsing the canonical text of an integer gives the integer back. */
  lemma FromStringRoundTrip(i: int)
    ensures FromString(IntToString(i)) == Some(i)
  {
    var s := IntToString(i);
    if i < 0 {
      assert s[1..] == DecimalOf(-i);
      DigitsRoundTrip(-i, 10);
      assert !IsHexLiteral(s[1..]);
    } else {
      DigitsRoundTrip(i, 10);
      assert !IsDecimalDigit('-');
      assert !IsHexLiteral(s);
    }
  }

  /** Canonicalisation is idempotent: a canonical string read back through
      `BigNumber.from` is itself. */
  lemma CanonicalIsFixedPoint(v: Json)
    requires CanonicalString(v).Some?
    ensures CanonicalString(JStr(CanonicalString(v).value)) == CanonicalString(v)
  {
    var i: int :| CanonicalString(v).value == IntToString(i);
    FromStringRoundTrip(i);
  }

  /** A content id stored as a JSON number or as its decimal string yields the
      same identity as the registry id itself. */
  lemma StoredFormsAgree(id: ContentId)
    requires id < MaxSafe
    ensures CanonicalString(JNum(id)) == Some(Canon(id))
    ensures CanonicalString(JStr(Canon(id))) == Some(Canon(id))
  {
    FromStringRoundTrip(id);
  }

  /** Leading zeros are normalised away. */
  lemma CanonicalExamples()
    ensures CanonicalString(JStr("007")) == Some("7")
  {
    assert ValueOf("007", 10) == 7 by {
      assert "007"[..2] == "00";
      assert "00"[..1] == "0";
      assert "0"[..0] == "";
    }
  }

  /** The sign of zero is dropped. */
  lemma CanonicalNegativeZero()
    ensures CanonicalString(JStr("-0")) == Some("0")
  {
    assert "-0"[1..] == "0";
    assert ValueOf("0", 10) == 0 by {
      assert "0"[..0] == "";
    }
  }

  /** A `0x` literal, with hex digits of either case, is read as hex and
      printed in decimal. */
  lemma CanonicalHexExample()
    ensures CanonicalString(JStr("0x1F")) == Some("31")
  {
    assert "0x1F"[2..] == "1F";
    assert ValueOf("1F", 16) == 31 by {
      assert "1F"[..1] == "1";
      assert "1"[..0] == "";
    }
    assert IsHexLiteral("0x1F");
    assert DecimalOf(31) == "31" by {
      assert DigitsOf(3, 10) == "3";
    }
  }

  /** The empty string, trailing garbage, an upper-case `0X` prefix, a
      number at the safe limit and a boolean all make
      `BigNumber.from(v).toString()` throw. */
  lemma CanonicalRejects()
    ensures CanonicalString(JStr("")) == None
    ensures CanonicalString(JStr("12abc")) == None
    ensures CanonicalString(JStr("0X1F")) == None
    ensures CanonicalString(JNum(MaxSafe)) == None
    ensures CanonicalString(JBool(true)) == None
  {
    assert !IsDecimalLiteral("12abc") by {
      assert !IsDecimalDigit("12abc"[2]);
    }
    assert !IsDecimalLiteral("0X1F") by {
      assert !IsDecimalDigit("0X1F"[1]);
    }
  }
}

=== FILE: eligibility.dfy ===
/** The mint page's reconciler (`updateMintDisabledStates`): from one
    snapshot of its inputs it rebuilds, for every content item, whether the
    item's mint button is disabled. */
module Eligibility {
  import opened Basics
  import opened BigNumber
  import opened Text

  /** The three feature switches read from the environment. */
  datatype Flags = Flags(checkCoreProtected: bool, checkContentProtected: bool, checkMinted: bool)

  /** A switch is on when its variable is set and reads `true` in any
      letter case (`v?.toLowerCase() === 'true'`); unset or anything else is
      off. */
  function FlagFromEnv(v: Option<string>): (on: bool)
    ensures on <==> v.Some? && |v.value| == 4
                    && forall i :: 0 <= i < 4 ==> LowerChar(v.value[i]) == "true"[i]
  {
    v.Some? && LowerString(v.value) == "true"
  }

  lemma FlagExamples()
    ensures FlagFromEnv(Some("true")) && FlagFromEnv(Some("TRUE")) && FlagFromEnv(Some("True"))
    ensures !FlagFromEnv(None) && !FlagFromEnv(Some("1")) && !FlagFromEnv(Some("yes"))
    ensures !FlagFromEnv(Some(" true")) && !FlagFromEnv(Some("false"))
  {
    assert LowerChar('1') != 't';
    assert LowerChar('y') != 't';
    assert LowerChar(' ') != 't';
    assert LowerChar('f') != 't';
  }

  /** A registry entry: its content id and its JSON payload (a string). */
  datatype ContentItem = ContentItem(id: ContentId, content: string)

  /** The registry's `isContentProtected(id)`: an answer or a throw. */
  datatype ProtectionRead = ProtectionIs(isProtected: bool) | ProtectionThrows

  /** `checkContentProtectionStatus(id)`: with no wallet, or when the read
      throws, the content counts as unprotected. */
  function ContentProtected(hasProvider: bool, protection: ContentId -> ProtectionRead, id: ContentId)
    : (r: bool)
    ensures r <==> hasProvider && protection(id) == ProtectionIs(true)
  {
    if !hasProvider then false
    else match protection(id)
      case ProtectionIs(b) => b
      case ProtectionThrows => false
  }

  /** Everything one recompute reads. */
  datatype Snapshot = Snapshot(
    contents: seq<ContentItem>,
    mintLoadingId: Option<ContentId>,
    networkMismatch: bool,
    flags: Flags,
    isProtected: bool,
    minted: set<string>,
    hasProvider: bool,
    protection: ContentId -> ProtectionRead)

  /** The decision for one item, as the loop body computes it: start from
      "this item is loading, or the network is wrong", then let each enabled
      check force it to true. */
  function IsDisabled(s: Snapshot, id: ContentId): (r: bool)
    ensures r <==>
              || s.mintLoadingId == Some(id)
              || s.networkMismatch
              || (s.flags.checkCoreProtected && !s.isProtected)
              || (s.flags.checkContentProtected && !(s.hasProvider && s.protection(id) == ProtectionIs(true)))
              || (s.flags.checkMinted && Canon(id) in s.minted)
  {
    var loadingOrWrongNetwork := s.mintLoadingId == Some(id) || s.networkMismatch;
    var afterCore := if s.flags.checkCoreProtected && !s.isProtected then true else loadingOrWrongNetwork;
    var afterContent :=
      if s.flags.checkContentProtected && !ContentProtected(s.hasProvider, s.protection, id) then true
      else afterCore;
    if s.flags.checkMinted && Canon(id) in s.minted then true else afterContent
  }

  function ContentIds(contents: seq<ContentItem>): set<ContentId> {
    set c | c in contents :: c.id
  }

  /** `m` is the disabled map of snapshot `s`: exactly one key per content
      id, each holding that item's decision. */
  ghost predicate IsDisabledMapFor(s: Snapshot, m: map<ContentId, bool>) {
    && m.Keys == ContentIds(s.contents)
    && forall id :: id in m ==> m[id] == IsDisabled(s, id)
  }

  /** `updateMintDisabledStates()`: a fresh map built by one pass over the
      content list; nothing of the previous map survives. */
  method UpdateMintDisabledStates(s: Snapshot) returns (m: map<ContentId, bool>)
    ensures m.Keys == ContentIds(s.contents)
    ensures forall c :: c in s.contents ==> m[c.id] == IsDisabled(s, c.id)
    ensures IsDisabledMapFor(s, m)
  {
    m := map[];
    var i := 0;
    while i < |s.contents|
      invariant 0 <= i <= |s.contents|
      invariant m.Keys == ContentIds(s.contents[..i])
      invariant forall id :: id in m ==> m[id] == IsDisabled(s, id)
    {
      var content := s.contents[i];
      var disabled := s.mintLoadingId == Some(content.id) || s.networkMismatch;
      if s.flags.checkCoreProtected && !s.isProtected {
        disabled := true;
      }
      if s.flags.checkContentProtected {
        var isContentProtected := ContentProtected(s.hasProvider, s.protection, content.id);
        if !isContentProtected {
          disabled := true;
        }
      }
      if s.flags.checkMinted && Canon(content.id) in s.minted {
        disabled := true;
      }
      m := m[content.id := disabled];
      assert s.contents[..i + 1] == s.contents[..i] + [content];
      i := i + 1;
    }
    assert s.contents[..i] == s.contents;
  }

  /** `mintDisabledStates[content.id] || false`: a key the map lacks renders
      as enabled. */
  function ButtonDisabled(m: map<ContentId, bool>, id: ContentId): (r: bool)
    ensures id !in m ==> !r
    ensures id in m ==> r == m[id]
  {
    if id in m then m[id] else false
  }

  /** Recomputing on an unchanged snapshot yields the same map: the
      contract of the recompute leaves no freedom. */
  lemma DisabledMapIsDetermined(s: Snapshot, m1: map<ContentId, bool>, m2: map<ContentId, bool>)
    requires IsDisabledMapFor(s, m1) && IsDisabledMapFor(s, m2)
    ensures m1 == m2
  {
    assert forall id :: id in m1 ==> m1[id] == m2[id];
  }

  /** Each rendered item's button shows exactly its decision. */
  lemma RenderedButtonMatchesDecision(s: Snapshot, m: map<ContentId, bool>, c: ContentItem)
    requires IsDisabledMapFor(s, m) && c in s.contents
    ensures ButtonDisabled(m, c.id) == IsDisabled(s, c.id)
  {
  }

  /** With every check switched off and the right network, only the item
      being minted is disabled. */
  lemma NoChecksEnablesAllButLoading(s: Snapshot, id: ContentId)
    requires !s.flags.checkCoreProtected && !s.flags.checkContentProtected && !s.flags.checkMinted
    requires !s.networkMismatch
    ensures IsDisabled(s, id) <==> s.mintLoadingId == Some(id)
  {
  }

  /** The loading marker disables its own item and no other: a pending mint
      of one item leaves the decision for every other item as if nothing
      were loading. */
  lemma LoadingDisablesOnlyItsItem(s: Snapshot, loading: ContentId, id: ContentId)
    ensures IsDisabled(s.(mintLoadingId := Some(loading)), loading)
    ensures loading != id ==>
              IsDisabled(s.(mintLoadingId := Some(loading)), id) == IsDisabled(s.(mintLoadingId := None), id)
  {
  }

  /** A network mismatch disables every item. */
  lemma MismatchDisablesEverything(s: Snapshot, id: ContentId)
    requires s.networkMismatch
    ensures IsDisabled(s, id)
  {
  }

  /** Once an item's canonical id is in the minted set and the minted check
      is on, its button stays disabled whatever else holds. */
  lemma MintedStaysDisabled(s: Snapshot, id: ContentId)
    requires s.flags.checkMinted
    ensures IsDisabled(s.(minted := s.minted + {Canon(id)}), id)
  {
  }
}

=== FILE: json.dfy ===
/** JavaScript values as the front end sees them after `JSON.parse`, and the
    few built-in operations it applies to them: truthiness (`||`, `if (x)`),
    property enumeration (`Object.keys`), property reads and `String(v)`. */
module Json {
  import opened Basics
  import Text

  /** A JSON value. Numbers are integers (JavaScript doubles outside the
      integers are not modelled). An object's fields are listed in the order
      `Object.keys` enumerates them; a value produced by `JSON.parse` never
      repeats a key. */
  datatype Json =
    | JNull
    | JBool(b: bool)
    | JNum(n: int)
    | JStr(s: string)
    | JArr(items: seq<Json>)
    | JObj(fields: seq<(string, Json)>)

  /** The result of `JSON.parse(text)`: a value, or a thrown SyntaxError. */
  datatype ParseResult = Parsed(value: Json) | SyntaxError(message: string)

  /** The result of invoking one contract method through ethers: the value it
      resolved to, or the error it threw (a revert, an RPC failure). */
  datatype CallOutcome = Returns(value: Json) | Throws(error: JsError)

  /** JavaScript truthiness: `null`, `false`, `0` and `""` are falsy. */
  predicate Truthy(v: Json) {
    match v
    case JNull => false
    case JBool(b) => b
    case JNum(n) => n != 0
    case JStr(s) => s != ""
    case JArr(_) => true
    case JObj(_) => true
  }

  /** `Object.keys(v).map(k => [k, v[k]])`: own enumerable properties, which
      for arrays and strings are the indices. */
  function Entries(v: Json): seq<(string, Json)> {
    match v
    case JObj(fs) => fs
    case JArr(xs) => seq(|xs|, i requires 0 <= i < |xs| => (Text.DecimalOf(i), xs[i]))
    case JStr(s) => seq(|s|, i requires 0 <= i < |s| => (Text.DecimalOf(i), JStr([s[i]])))
    case _ => []
  }

  function Lookup(fs: seq<(string, Json)>, key: string): (r: Option<Json>)
    ensures r.Some? <==> exists i :: 0 <= i < |fs| && fs[i].0 == key
    ensures r.Some? ==> exists i :: 0 <= i < |fs| && fs[i] == (key, r.value)
  {
    if |fs| == 0 then None
    else if fs[0].0 == key then Some(fs[0].1)
    else
      var r := Lookup(fs[1..], key);
      assert forall i :: 0 <= i < |fs| - 1 ==> fs[1..][i] == fs[i + 1];
      r
  }

  /** The property read `v[key]` for an own property: `None` is `undefined`.
      Reading a property of `null` throws in JavaScript; every caller treats
      that throw like `undefined`, so it is folded into `None` here. */
  function Get(v: Json, key: string): Option<Json> {
    Lookup(Entries(v), key)
  }

  function Join(parts: seq<string>, sep: string): string
    decreases |parts|
  {
    if |parts| == 0 then ""
    else if |parts| == 1 then parts[0]
    else Join(parts[..|parts| - 1], sep) + sep + parts[|parts| - 1]
  }

  /** 10^21: from this magnitude on, `String(n)` switches to exponential
      notation. */
  const ExponentialFrom: int := 1_000_000_000_000_000_000_000

  /** The digit string `s` without its trailing zeros. */
  function TrimZeros(s: string): (r: string)
    ensures |r| <= |s| && r == s[..|r|]
    ensures |r| > 0 ==> r[|r| - 1] != '0'
    ensures forall i :: |r| <= i < |s| ==> s[i] == '0'
    ensures |s| > 0 && s[0] != '0' ==> |r| > 0
    decreases |s|
  {
    if |s| == 0 || s[|s| - 1] != '0' then s
    else TrimZeros(s[..|s| - 1])
  }

  /** `String(n)` for an integer at or beyond 10^21 in magnitude: the
      significant digits with a point after the first when there are several,
      then `e+` and the decimal exponent. */
  function Exponential(n: int): (r: string)
    requires n <= -ExponentialFrom || ExponentialFrom <= n
  {
    var magnitude := if n < 0 then -n else n;
    var digits := Text.DecimalOf(magnitude);
    var significant := TrimZeros(digits);
    (if n < 0 then "-" else "") + significant[..1]
      + (if |significant| > 1 then "." + significant[1..] else "")
      + "e+" + Text.DecimalOf(|digits| - 1)
  }

  /** `String(n)` for an integer-valued number: plain decimal below 10^21 in
      magnitude, exponential notation from there on. */
  function JsNumber(n: int): (r: string)
    ensures -ExponentialFrom < n < ExponentialFrom ==> r == Text.IntToString(n)
    ensures n <= -ExponentialFrom || ExponentialFrom <= n ==> r == Exponential(n)
  {
    if -ExponentialFrom < n < ExponentialFrom then Text.IntToString(n) else Exponential(n)
  }

  /** Trailing zeros appended to a digit string ending in another digit
      are exactly what `TrimZeros` removes. */
  lemma {:induction false} TrimAppendedZeros(s: string, k: nat)
    requires |s| > 0 && s[|s| - 1] != '0'
    ensures TrimZeros(s + Text.Zeros(k)) == s
    decreases k
  {
    if k == 0 {
      assert s + Text.Zeros(0) == s;
    } else {
      assert (s + Text.Zeros(k))[..|s| + k - 1] == s + Text.Zeros(k - 1);
      TrimAppendedZeros(s, k - 1);
    }
  }

  /** A number whose decimal digits are `d` followed by `k` zeros, with `d`
      not ending in 0, prints `d` as its significant digits. */
  lemma ExponentialOfDigits(m: int, d: string, k: nat)
    requires ExponentialFrom <= m
    requires Text.DecimalOf(m) == d + Text.Zeros(k)
    requires |d| > 0 && d[|d| - 1] != '0'
    ensures JsNumber(m) == d[..1] + (if |d| > 1 then "." + d[1..] else "") + "e+" + Text.DecimalOf(|d| + k - 1)
  {
    TrimAppendedZeros(d, k);
    assert |Text.DecimalOf(m)| - 1 == |d| + k - 1;
  }

  /** A number `n * 10^k` whose `n` does not end in 0 prints the digits of
      `n` as its significant digits, with the exponent counting all the
      digits after the first. */
  lemma ScaledExponential(n: nat, k: nat, m: int)
    requires n % 10 != 0
    requires m == n * Text.Pow10(k) && ExponentialFrom <= m
    ensures var d := Text.DecimalOf(n);
            JsNumber(m) == d[..1] + (if |d| > 1 then "." + d[1..] else "") + "e+" + Text.DecimalOf(|d| + k - 1)
  {
    var d := Text.DecimalOf(n);
    Text.ShiftedDigits(n, k);
    Text.LastDigit(n);
    ExponentialOfDigits(m, d, k);
  }

  lemma Pow10Values()
    ensures Text.Pow10(20) == 100_000_000_000_000_000_000
    ensures Text.Pow10(21) == ExponentialFrom
  {
    assert Text.Pow10(7) == 10_000_000;
    assert Text.Pow10(14) == 100_000_000_000_000;
  }

  lemma SmallDecimals()
    ensures Text.DecimalOf(1) == "1"
    ensures Text.DecimalOf(15) == "15"
    ensures Text.DecimalOf(21) == "21"
  {
  }

  /** `String(1e21)`: the first integer JavaScript prints in exponential
      form. */
  lemma FirstExponential(m: int)
    requires m == Text.Pow10(21)
    ensures m == ExponentialFrom
    ensures JsNumber(m) == "1e+21"
  {
    Pow10Values();
    ScaledExponential(1, 21, m);
    SmallDecimals();
    var d := Text.DecimalOf(1);
    assert d[..1] + "e+" + Text.DecimalOf(21) == "1e+21";
  }

  /** `String(1.5e21)`: several significant digits get a decimal point. */
  lemma FractionalExponential(m: int)
    requires m == 15 * Text.Pow10(20)
    ensures m == 1_500_000_000_000_000_000_000
    ensures JsNumber(m) == "1.5e+21"
  {
    Pow10Values();
    ScaledExponential(15, 20, m);
    SmallDecimals();
    var d := Text.DecimalOf(15);
    assert d[..1] == "1" && d[1..] == "5";
    assert d[..1] + ("." + d[1..]) + "e+" + Text.DecimalOf(21) == "1.5e+21";
  }

  /** `String(v)`. Arrays join their elements with "," and print `null`
      elements as the empty string. */
  function JsString(v: Json): string
    decreases v
  {
    match v
    case JNull => "null"
    case JBool(b) => if b then "true" else "false"
    case JNum(n) => JsNumber(n)
    case JStr(s) => s
    case JArr(xs) =>
      Join(seq(|xs|, i requires 0 <= i < |xs| => if xs[i].JNull? then "" else JsString(xs[i])), ",")
    case JObj(_) => "[object Object]"
  }
}

=== FILE: ledger_scans.dfy ===
/** The front end's scans run against the SPEN ledger: what the minted-content
    set and the owned-NFT listing contain for a given state of the contract,
    and how minting and burning change them. */
module LedgerScans {
  import opened Basics
  import opened Json
  import opened BigNumber
  import opened Scans
  import Spen

  function CallValue<T>(c: Spen.Call<T>): (r: Option<T>)
    ensures r.Some? <==> c.Done?
  {
    match c
    case Done(v) => Some(v)
    case Reverted(_) => None
  }

  /** The answers a ledger gives to `ownerOf` and `tokenURI`: a revert is a
      throw. */
  function Reads(l: Spen.Ledger): (chain: TokenReads)
    ensures forall id: nat :: IsValidTokenId(chain, id) <==> Spen.Exists(l, id)
  {
    TokenReads((id: nat) => CallValue(Spen.OwnerOf(l, id)),
               (id: nat) => CallValue(Spen.TokenURI(l, id)))
  }

  /** The canonical content id embedded in a token URI, if the scan would
      accept it: the URI parses, has a truthy `contentId`, and that value
      passes `BigNumber.from`. */
  function EmbeddedId(parse: string -> ParseResult, uri: string): Option<string> {
    match parse(uri)
    case SyntaxError(_) => None
    case Parsed(data) =>
      match Get(data, "contentId")
      case None => None
      case Some(c) => if Truthy(c) then CanonicalString(c) else None
  }

  /** The ids of live tokens whose URI embeds an accepted content id. */
  lemma ContributionOfLedger(l: Spen.Ledger, parse: string -> ParseResult, i: nat)
    ensures MintedContribution(Reads(l), parse, i)
         == (if Spen.Exists(l, i) then EmbeddedId(parse, l.tokens[i].value.uri) else None)
  {
  }

  /** Scanning the ledger over its whole total supply finds exactly the
      embedded content ids of its live tokens; burned slots contribute
      nothing. */
  lemma {:induction false} ScanFindsLiveEmbeddedIds(l: Spen.Ledger, parse: string -> ParseResult)
    ensures forall c :: c in MintedUpTo(Reads(l), parse, LoopBound(JNum(Spen.TotalSupply(l)))) <==>
              exists i :: 0 <= i < |l.tokens| && Spen.Exists(l, i)
                          && EmbeddedId(parse, l.tokens[i].value.uri) == Some(c)
  {
    var n := Spen.TotalSupply(l);
    assert LoopBound(JNum(n)) == n;
    forall c
      ensures c in MintedUpTo(Reads(l), parse, n) <==>
              exists i :: 0 <= i < |l.tokens| && Spen.Exists(l, i)
                          && EmbeddedId(parse, l.tokens[i].value.uri) == Some(c)
    {
      if c in MintedUpTo(Reads(l), parse, n) {
        var i :| 0 <= i < n && MintedContribution(Reads(l), parse, i).Some?
                 && MintedContribution(Reads(l), parse, i).value == c;
        ContributionOfLedger(l, parse, i);
      }
      if exists i :: 0 <= i < |l.tokens| && Spen.Exists(l, i)
                     && EmbeddedId(parse, l.tokens[i].value.uri) == Some(c) {
        var i :| 0 <= i < |l.tokens| && Spen.Exists(l, i)
                 && EmbeddedId(parse, l.tokens[i].value.uri) == Some(c);
        ContributionOfLedger(l, parse, i);
      }
    }
  }

  /** A token whose URI carries its content id as a plain JSON number within
      the safe-integer range, as the test suite's URIs do
      (`"contentId": 1`). */
  predicate NumericToken(t: Spen.Token, parse: string -> ParseResult) {
    && t.contentId < MaxSafe
    && parse(t.uri).Parsed?
    && Get(parse(t.uri).value, "contentId") == Some(JNum(t.contentId))
  }

  /** Every live token of the ledger has a numeric content id in its URI. */
  predicate NumericShaped(l: Spen.Ledger, parse: string -> ParseResult) {
    forall i :: 0 <= i < |l.tokens| && l.tokens[i].Some? ==> NumericToken(l.tokens[i].value, parse)
  }

  /** Such a token contributes its canonical content id, unless the id is 0. */
  lemma NumericTokenEmbeds(t: Spen.Token, parse: string -> ParseResult)
    requires NumericToken(t, parse)
    ensures EmbeddedId(parse, t.uri) == (if t.contentId != 0 then Some(Canon(t.contentId)) else None)
  {
    if t.contentId != 0 {
      StoredFormsAgree(t.contentId);
    }
  }

  /** For a ledger with numeric content ids, the minted set is exactly the
      canonical ids of the live content ids, except 0: a numeric 0 is falsy
      and never counts. */
  lemma {:induction false} ScanOfNumericLedger(l: Spen.Ledger, parse: string -> ParseResult, cid: ContentId)
    requires NumericShaped(l, parse)
    ensures Canon(cid) in MintedUpTo(Reads(l), parse, LoopBound(JNum(Spen.TotalSupply(l))))
            <==> cid != 0 && Spen.ContentLive(l, cid)
  {
    ScanFindsLiveEmbeddedIds(l, parse);
    var scanned := MintedUpTo(Reads(l), parse, LoopBound(JNum(Spen.TotalSupply(l))));
    if Canon(cid) in scanned {
      var i :| 0 <= i < |l.tokens| && Spen.Exists(l, i)
               && EmbeddedId(parse, l.tokens[i].value.uri) == Some(Canon(cid));
      var t := l.tokens[i].value;
      NumericTokenEmbeds(t, parse);
      CanonInjective(cid, t.contentId);
    }
    if cid != 0 && Spen.ContentLive(l, cid) {
      var i :| 0 <= i < |l.tokens| && l.tokens[i].Some? && l.tokens[i].value.contentId == cid;
      NumericTokenEmbeds(l.tokens[i].value, parse);
    }
  }

  /** A token as the mint page writes it: `JSON.stringify` of metadata whose
      `contentId` is the BigNumber the registry returned, which serializes
      as `{"type":"BigNumber","hex":...}`. */
  predicate PageToken(t: Spen.Token, parse: string -> ParseResult) {
    && parse(t.uri).Parsed?
    && Get(parse(t.uri).value, "contentId") == Some(SerializedForm(t.contentId))
  }

  /** Every live token of the ledger was written by the mint page. */
  predicate PageShaped(l: Spen.Ledger, parse: string -> ParseResult) {
    forall i :: 0 <= i < |l.tokens| && l.tokens[i].Some? ==> PageToken(l.tokens[i].value, parse)
  }

  /** Such a token always contributes its canonical content id: the
      serialized object is truthy, even for id 0. */
  lemma PageTokenEmbeds(t: Spen.Token, parse: string -> ParseResult)
    requires PageToken(t, parse)
    ensures EmbeddedId(parse, t.uri) == Some(Canon(t.contentId))
  {
    SerializedRoundTrip(t.contentId);
  }

  /** For a ledger written by the mint page, the minted set is exactly the
      canonical ids of the live content ids, 0 included. */
  lemma {:induction false} ScanOfPageLedger(l: Spen.Ledger, parse: string -> ParseResult, cid: ContentId)
    requires PageShaped(l, parse)
    ensures Canon(cid) in MintedUpTo(Reads(l), parse, LoopBound(JNum(Spen.TotalSupply(l))))
            <==> Spen.ContentLive(l, cid)
  {
    ScanFindsLiveEmbeddedIds(l, parse);
    var scanned := MintedUpTo(Reads(l), parse, LoopBound(JNum(Spen.TotalSupply(l))));
    if Canon(cid) in scanned {
      var i :| 0 <= i < |l.tokens| && Spen.Exists(l, i)
               && EmbeddedId(parse, l.tokens[i].value.uri) == Some(Canon(cid));
      var t := l.tokens[i].value;
      PageTokenEmbeds(t, parse);
      CanonInjective(cid, t.contentId);
    }
    if Spen.ContentLive(l, cid) {
      var i :| 0 <= i < |l.tokens| && l.tokens[i].Some? && l.tokens[i].value.contentId == cid;
      PageTokenEmbeds(l.tokens[i].value, parse);
    }
  }

  /** After the mint page mints content `cid`, the next scan records it, so
      the item's button is disabled when the minted check is on. */
  lemma MintIsSeenByScan(l: Spen.Ledger, parse: string -> ParseResult, to: Address, uri: string,
                         cid: ContentId, pay: Spen.Payment)
    requires PageShaped(l, parse)
    requires PageToken(Spen.Token(to, uri, cid), parse)
    requires Spen.MintNFT(l, to, uri, cid, pay).Done?
    ensures var l' := Spen.MintNFT(l, to, uri, cid, pay).value.ledger;
            Canon(cid) in MintedUpTo(Reads(l'), parse, LoopBound(JNum(Spen.TotalSupply(l'))))
  {
    var l' := Spen.MintNFT(l, to, uri, cid, pay).value.ledger;
    assert l'.tokens == l.tokens + [Some(Spen.Token(to, uri, cid))];
    assert PageShaped(l', parse);
    assert l'.tokens[|l.tokens|].value.contentId == cid;
    ScanOfPageLedger(l', parse, cid);
  }

  /** Burning the only live token of a content id removes it from the next
      scan, so the item becomes mintable again. */
  lemma BurnIsSeenByScan(l: Spen.Ledger, parse: string -> ParseResult, owner: Address, id: nat)
    requires Spen.Valid(l) && PageShaped(l, parse)
    requires Spen.Burn(l, owner, id).Done?
    ensures var l' := Spen.Burn(l, owner, id).value;
            Canon(l.tokens[id].value.contentId)
              !in MintedUpTo(Reads(l'), parse, LoopBound(JNum(Spen.TotalSupply(l'))))
  {
    var l' := Spen.Burn(l, owner, id).value;
    var cid := l.tokens[id].value.contentId;
    assert PageShaped(l', parse);
    assert !Spen.ContentLive(l', cid);
    ScanOfPageLedger(l', parse, cid);
  }

  /** The owned-NFT listing of a ledger whose URIs all parse, for a present
      user: one entry per live token in id order, each with the token's
      owner, and no entry for a burned or never-minted id. */
  lemma {:induction false} ListingOfLedger(l: Spen.Ledger, parse: string -> ParseResult, user: Address)
    requires forall i :: 0 <= i < |l.tokens| && l.tokens[i].Some? ==> parse(l.tokens[i].value.uri).Parsed?
    ensures var nfts := Listing(JNum(Spen.TotalSupply(l)), Reads(l), parse, Some(user));
            && (forall k :: 0 <= k < |nfts| ==>
                  && Spen.Exists(l, nfts[k].tokenId)
                  && nfts[k].owner == l.tokens[nfts[k].tokenId].value.owner
                  && (nfts[k].isOwnedByUser <==> IsOwnedByUser(l.tokens[nfts[k].tokenId].value.owner, user)))
            && (forall i :: 0 <= i < |l.tokens| && Spen.Exists(l, i) ==>
                  exists k :: 0 <= k < |nfts| && nfts[k].tokenId == i)
  {
    var n := Spen.TotalSupply(l);
    var chain := Reads(l);
    assert LoopBound(JNum(n)) == n;
    var ids := LiveIds(chain, n);
    assert ListingReadable(chain, parse, Some(user), ids) by {
      forall k | 0 <= k < |ids|
        ensures chain.tokenURI(ids[k]).Some? && parse(chain.tokenURI(ids[k]).value).Parsed?
      {
        assert Spen.Exists(l, ids[k]);
      }
    }
    var nfts := Listing(JNum(n), chain, parse, Some(user));
    assert |nfts| == |ids| && forall k :: 0 <= k < |ids| ==> nfts[k].tokenId == ids[k];
    forall i | 0 <= i < |l.tokens| && Spen.Exists(l, i)
      ensures exists k :: 0 <= k < |nfts| && nfts[k].tokenId == i
    {
      assert IsValidTokenId(chain, i);
      var k :| 0 <= k < |ids| && ids[k] == i;
      assert nfts[k].tokenId == i;
    }
  }

  /** One unreadable URI among the live tokens empties the whole listing,
      while the minted-content scan only loses that token. */
  lemma UnreadableUriEmptiesListing(l: Spen.Ledger, parse: string -> ParseResult, user: Option<Address>, bad: nat)
    requires Spen.Exists(l, bad)
    requires parse(l.tokens[bad].value.uri).SyntaxError?
    ensures Listing(JNum(Spen.TotalSupply(l)), Reads(l), parse, user) == []
    ensures MintedContribution(Reads(l), parse, bad).None?
  {
    var chain := Reads(l);
    var n := Spen.TotalSupply(l);
    assert LoopBound(JNum(n)) == n;
    assert IsValidTokenId(chain, bad);
    var ids := LiveIds(chain, n);
    var k :| 0 <= k < |ids| && ids[k] == bad;
    assert !ListingReadable(chain, parse, user, ids);
  }
}

=== FILE: metadata.dfy ===
/** The NFT metadata the mint page builds from a content item's JSON payload
    before submitting it: display fields with fallback texts, every other
    key turned into an attribute whose trait type is the key in Title Case,
    and the content id echoed back. */
module Metadata {
  import opened Basics
  import opened Text
  import opened Json

  /** Keys that become top-level fields rather than attributes. */
  const ExcludedKeys: seq<string> := ["name", "description", "image"]

  const NoName: string := "No Name"
  const NoDescription: string := "No Description"
  const NoImage: string := "No Image"

  datatype Attribute = Attribute(traitType: string, value: string)

  datatype NftMetadata = NftMetadata(
    name: Json,
    description: Json,
    image: Json,
    attributes: seq<Attribute>,
    contentId: ContentId)

  /** `key.replace(/_/g, ' ')` */
  function SpaceUnderscores(key: string): string {
    seq(|key|, i requires 0 <= i < |key| => if key[i] == '_' then ' ' else key[i])
  }

  /** Position `i` is matched by `\b\w`: a word character at the start or
      after a non-word character. */
  predicate IsWordStart(t: string, i: int)
    requires 0 <= i < |t|
  {
    IsWordChar(t[i]) && (i == 0 || !IsWordChar(t[i - 1]))
  }

  /** `t.replace(/\b\w/g, (char) => char.toUpperCase())` */
  function CapitalizeWords(t: string): string {
    seq(|t|, i requires 0 <= i < |t| => if IsWordStart(t, i) then UpperChar(t[i]) else t[i])
  }

  /** The attribute trait type made from a JSON key: snake_case to Title
      Case. */
  function TraitType(key: string): string {
    CapitalizeWords(SpaceUnderscores(key))
  }

  /** The transform keeps the length, leaves no underscore, turns exactly
      the underscores into spaces, and changes no other character except by
      upper-casing it. */
  lemma TraitTypeShape(key: string)
    ensures |TraitType(key)| == |key|
    ensures forall i :: 0 <= i < |key| ==> TraitType(key)[i] != '_'
    ensures forall i :: 0 <= i < |key| ==> (key[i] == '_' <==> TraitType(key)[i] == ' ' && key[i] != ' ')
    ensures forall i :: 0 <= i < |key| && key[i] != '_' ==>
              TraitType(key)[i] == key[i] || TraitType(key)[i] == UpperChar(key[i])
  {
  }

  lemma UpperCharKeepsWordness(c: char)
    ensures IsWordChar(UpperChar(c)) <==> IsWordChar(c)
    ensures UpperChar(UpperChar(c)) == UpperChar(c)
  {
  }

  /** Applying the transform to its own output changes nothing. */
  lemma TraitTypeIdempotent(key: string)
    ensures TraitType(TraitType(key)) == TraitType(key)
  {
    var u := SpaceUnderscores(key);
    var t := TraitType(key);
    assert SpaceUnderscores(t) == t;
    forall i | 0 <= i < |t|
      ensures IsWordChar(t[i]) <==> IsWordChar(u[i])
      ensures t[i] == UpperChar(u[i]) || t[i] == u[i]
    {
      UpperCharKeepsWordness(u[i]);
    }
    forall i | 0 <= i < |t|
      ensures CapitalizeWords(t)[i] == t[i]
    {
      assert IsWordStart(t, i) <==> IsWordStart(u, i);
      UpperCharKeepsWordness(u[i]);
    }
  }

  /** Concrete keys. */
  lemma TraitTypeExamples()
    ensures TraitType("foo") == "Foo"
    ensures TraitType("snake_case") == "Snake Case"
    ensures TraitType("2nd_place") == "2nd Place"
  {
    assert IsWordStart(SpaceUnderscores("foo"), 0);
    assert IsWordStart(SpaceUnderscores("snake_case"), 6);
    assert !IsWordStart(SpaceUnderscores("2nd_place"), 1);
  }

  /** The entries of the payload that become attributes, in their original
      order. */
  function OtherEntries(fs: seq<(string, Json)>): (r: seq<(string, Json)>)
    ensures forall e :: e in r ==> e in fs && e.0 !in ExcludedKeys
    ensures forall e :: e in fs && e.0 !in ExcludedKeys ==> e in r
    ensures |r| <= |fs|
  {
    if |fs| == 0 then []
    else (if fs[0].0 in ExcludedKeys then [] else [fs[0]]) + OtherEntries(fs[1..])
  }

  /** Filtering commutes with concatenation: the attributes follow the
      payload's key order. */
  lemma {:induction false} OtherEntriesDistributes(a: seq<(string, Json)>, b: seq<(string, Json)>)
    ensures OtherEntries(a + b) == OtherEntries(a) + OtherEntries(b)
    decreases |a|
  {
    if |a| > 0 {
      assert (a + b)[1..] == a[1..] + b;
      OtherEntriesDistributes(a[1..], b);
    } else {
      assert a + b == b;
    }
  }

  /** `String(v || "")`: a falsy value becomes the empty string. */
  function AttributeValue(v: Json): (s: string)
    ensures !Truthy(v) ==> s == ""
    ensures v.JStr? ==> s == v.s
    ensures v.JNum? && v.n != 0 ==> s == JsNumber(v.n)
    ensures v.JNum? && v.n != 0 && -ExponentialFrom < v.n < ExponentialFrom ==> s == IntToString(v.n)
    ensures v == JBool(true) ==> s == "true"
    ensures v.JObj? ==> s == "[object Object]"
    ensures Truthy(v) ==> s == JsString(v)
  {
    JsString(if Truthy(v) then v else JStr(""))
  }

  /** A payload amount of 1000 ether in wei becomes the trait value
      "1e+21", as `String` prints it. */
  lemma LargeAttributeIsExponential(wei: int)
    requires wei == 1000 * Text.Pow10(18)
    ensures wei == Text.Pow10(21)
    ensures AttributeValue(JNum(wei)) == "1e+21"
  {
    assert Text.Pow10(21) == 1000 * Text.Pow10(18);
    FirstExponential(wei);
  }

  /** `field || fallback` for a property read. */
  function OrFallback(v: Option<Json>, fallback: string): Json {
    if v.Some? && Truthy(v.value) then v.value else JStr(fallback)
  }

  /** `JSON.parse(content.content) || {}` */
  function PayloadObject(parsed: Json): Json {
    if Truthy(parsed) then parsed else JObj([])
  }

  /** The metadata object of a mint, from the parsed payload. */
  function BuildMetadata(parsed: Json, id: ContentId): (m: NftMetadata)
    ensures m.contentId == id
    ensures Truthy(m.name) && Truthy(m.description) && Truthy(m.image)
    ensures var src := PayloadObject(parsed);
            var name := Get(src, "name");
            var description := Get(src, "description");
            var image := Get(src, "image");
            && (name.Some? && Truthy(name.value) ==> m.name == name.value)
            && (name.None? || !Truthy(name.value) ==> m.name == JStr(NoName))
            && (description.Some? && Truthy(description.value) ==> m.description == description.value)
            && (description.None? || !Truthy(description.value) ==> m.description == JStr(NoDescription))
            && (image.Some? && Truthy(image.value) ==> m.image == image.value)
            && (image.None? || !Truthy(image.value) ==> m.image == JStr(NoImage))
    ensures var others := OtherEntries(Entries(PayloadObject(parsed)));
            && |m.attributes| == |others|
            && forall k :: 0 <= k < |others| ==>
                 m.attributes[k] == Attribute(TraitType(others[k].0), AttributeValue(others[k].1))
    ensures forall k :: 0 <= k < |m.attributes| ==> '_' !in m.attributes[k].traitType
  {
    var src := PayloadObject(parsed);
    var others := OtherEntries(Entries(src));
    var attributes := seq(|others|, k requires 0 <= k < |others| =>
                          Attribute(TraitType(others[k].0), AttributeValue(others[k].1)));
    forall k | 0 <= k < |attributes|
      ensures '_' !in attributes[k].traitType
    {
      TraitTypeShape(others[k].0);
    }
    NftMetadata(OrFallback(Get(src, "name"), NoName),
                OrFallback(Get(src, "description"), NoDescription),
                OrFallback(Get(src, "image"), NoImage),
                attributes, id)
  }

  /** The worked example: `{"name":"A","foo":"bar"}` keeps its name, falls
      back for description and image, and yields one attribute Foo = bar. */
  lemma BuildMetadataExample(id: ContentId)
    ensures var m := BuildMetadata(JObj([("name", JStr("A")), ("foo", JStr("bar"))]), id);
            && m.name == JStr("A")
            && m.description == JStr(NoDescription)
            && m.image == JStr(NoImage)
            && m.attributes == [Attribute("Foo", "bar")]
            && m.contentId == id
  {
    var fs := [("name", JStr("A")), ("foo", JStr("bar"))];
    var p := JObj(fs);
    assert fs[1..] == [("foo", JStr("bar"))];
    assert Get(p, "name") == Some(JStr("A"));
    assert Get(p, "description").None?;
    assert Get(p, "image").None?;
    assert OtherEntries(fs) == [("foo", JStr("bar"))] by {
      assert OtherEntries(fs[1..][1..]) == [];
    }
    assert TraitType("foo") == "Foo" by {
      assert IsWordStart(SpaceUnderscores("foo"), 0);
    }
    var m := BuildMetadata(p, id);
    assert m.attributes[0] == Attribute("Foo", "bar");
  }

  /** A payload that parses to a falsy value builds the all-fallback
      metadata with no attributes. */
  lemma FalsyPayloadFallsBack(parsed: Json, id: ContentId)
    requires !Truthy(parsed)
    ensures BuildMetadata(parsed, id)
         == NftMetadata(JStr(NoName), JStr(NoDescription), JStr(NoImage), [], id)
  {
  }
}

=== FILE: minting.dfy ===
/** The mint page's `mintNFT(content)`: an ordered chain of precondition
    checks, each failure with its own message and no transaction; then the
    loading marker, the metadata build, the submission, and a cleanup that
    clears the marker on every path. */
module Minting {
  import opened Basics
  import opened Json
  import opened BigNumber
  import opened Metadata
  import opened Eligibility
  import opened Wallet

  const ConnectWalletMessage: string := "Please connect your wallet to mint an NFT."
  const SwitchNetworkMessage: string := "Please switch to the correct network to mint an NFT."
  const NotProtectedModeMessage: string := "Contract is not in protected mode. Cannot mint NFT."
  const ContentNotProtectedMessage: string := "This content is not protected and cannot be minted."
  const AlreadyMintedMessage: string := "This content has already been minted."
  const MintedMessage: string := "NFT successfully minted!"
  const ErrorPrefix: string := "Error minting NFT: "

  /** The wallet's "user rejected the request" code. */
  const UserRejectedCode: int := 4001

  /** The TypeError thrown when the mint configuration never loaded and its
      price is read from `null`. */
  const NullConfigMessage: string := "Cannot read properties of null (reading 'mintPrice')"

  /** The mint page state `mintNFT` reads and writes. */
  datatype Page = Page(
    session: Session,
    mintStatus: string,
    dialogOpen: bool,
    mintLoadingId: Option<ContentId>,
    minted: set<string>)

  /** `contract.mintNFT(...)` followed by `tx.wait()`: mined, or thrown. */
  datatype TxOutcome = Mined(hash: string) | TxFailed(error: JsError)

  /** The inputs of one mint attempt besides the page state: the switches,
      the wallet, the protection answers, the loaded mint price (`None` when
      the mint configuration never loaded), the JSON parser, and what the
      submission will do. */
  datatype MintSettings = MintSettings(
    flags: Flags,
    chain: ChainConfig,
    provider: Provider,
    isProtected: bool,
    protection: ContentId -> ProtectionRead,
    mintPrice: Option<nat>,
    parse: string -> ParseResult,
    submit: TxOutcome)

  /** The precondition chain's verdict, with the session after any network
      check it ran. */
  datatype Precheck = Proceed(session: Session) | Stop(session: Session, message: string)

  /** The arguments of `contract.mintNFT(userAccount, JSON.stringify(metadata),
      content.id, { value })`. */
  datatype MintCall = MintCall(to: Address, metadata: NftMetadata, contentId: ContentId, value: nat)

  /** One call of `mintNFT`: the page afterwards, every value assigned to the
      loading marker in order, and the mint transaction requested, if any. */
  datatype MintRun = MintRun(page: Page, loadingTrace: seq<Option<ContentId>>, requested: Option<MintCall>)

  predicate IsUserRejection(e: JsError) {
    e.code == NumCode(UserRejectedCode) || e.code == StrCode("ACTION_REJECTED")
  }

  /** The checks of `mintNFT`, in source order: connected, network valid,
      contract protected (if checked), content protected (if checked), not
      already minted (if checked). */
  function CheckPreconditions(page: Page, st: MintSettings, content: ContentItem): (r: Precheck)
    ensures !Connected(page.session) ==> r == Stop(page.session, ConnectWalletMessage)
    ensures Connected(page.session) ==>
              var net := CheckNetwork(st.chain, st.provider, page.session);
              var coreFails := st.flags.checkCoreProtected && !st.isProtected;
              var contentFails := st.flags.checkContentProtected
                                  && !ContentProtected(st.provider.Injected?, st.protection, content.id);
              && r.session == net.session
              && (!net.ok ==> r == Stop(net.session, SwitchNetworkMessage))
              && (net.ok && coreFails ==> r == Stop(net.session, NotProtectedModeMessage))
              && (net.ok && !coreFails && contentFails ==>
                    r == Stop(net.session, ContentNotProtectedMessage))
              && (net.ok && !coreFails && !contentFails
                  && st.flags.checkMinted && Canon(content.id) in page.minted ==>
                    r == Stop(net.session, AlreadyMintedMessage))
    ensures r.Stop? && r.message == ContentNotProtectedMessage ==>
              st.flags.checkContentProtected && !ContentProtected(st.provider.Injected?, st.protection, content.id)
    ensures r.Stop? && r.message == AlreadyMintedMessage ==>
              st.flags.checkMinted && Canon(content.id) in page.minted
    ensures r.Proceed? <==>
              && Connected(page.session)
              && CheckNetwork(st.chain, st.provider, page.session).ok
              && !(st.flags.checkCoreProtected && !st.isProtected)
              && !(st.flags.checkContentProtected
                   && !ContentProtected(st.provider.Injected?, st.protection, content.id))
              && !(st.flags.checkMinted && Canon(content.id) in page.minted)
  {
    if !Connected(page.session) then Stop(page.session, ConnectWalletMessage)
    else
      var net := CheckNetwork(st.chain, st.provider, page.session);
      if !net.ok then Stop(net.session, SwitchNetworkMessage)
      else if st.flags.checkCoreProtected && !st.isProtected then
        Stop(net.session, NotProtectedModeMessage)
      else if st.flags.checkContentProtected
              && !ContentProtected(st.provider.Injected?, st.protection, content.id) then
        Stop(net.session, ContentNotProtectedMessage)
      else if st.flags.checkMinted && Canon(content.id) in page.minted then
        Stop(net.session, AlreadyMintedMessage)
      else Proceed(net.session)
  }

  /** The body of the `try`: parse the payload, build the metadata, read the
      price, submit. `requested` is the transaction request made, if the
      code got that far. */
  datatype Attempt = Attempt(outcome: TxOutcome, requested: Option<MintCall>)

  function TryMint(st: MintSettings, content: ContentItem, account: Address): (a: Attempt)
    ensures a.requested.Some? ==>
              && a.requested.value.to == account
              && a.requested.value.contentId == content.id
              && a.requested.value.metadata.contentId == content.id
              && st.mintPrice == Some(a.requested.value.value)
              && st.parse(content.content).Parsed?
              && a.requested.value.metadata == BuildMetadata(st.parse(content.content).value, content.id)
              && a.outcome == st.submit
    ensures a.requested.None? ==> a.outcome.TxFailed? && a.outcome.error.code == NoCode
    ensures st.parse(content.content).SyntaxError? ==>
              a == Attempt(TxFailed(JsError(NoCode, Some(st.parse(content.content).message))), None)
    ensures st.parse(content.content).Parsed? && st.mintPrice.None? ==>
              a == Attempt(TxFailed(JsError(NoCode, Some(NullConfigMessage))), None)
    ensures st.parse(content.content).Parsed? && st.mintPrice.Some? ==>
              a.requested.Some? && a.requested.value.value == st.mintPrice.value
  {
    match st.parse(content.content)
    case SyntaxError(message) => Attempt(TxFailed(JsError(NoCode, Some(message))), None)
    case Parsed(payload) =>
      var metadata := BuildMetadata(payload, content.id);
      match st.mintPrice
      case None => Attempt(TxFailed(JsError(NoCode, Some(NullConfigMessage))), None)
      case Some(price) => Attempt(st.submit, Some(MintCall(account, metadata, content.id, price)))
  }

  /** `mintNFT(content)`. A failed check sets its message, opens the dialog
      and returns, leaving the loading marker and the minted set alone and
      requesting nothing. Otherwise the marker is set to the item, the
      attempt runs, and the `finally` clears the marker whatever happened.
      Success records the item's canonical id in the minted set; a user
      rejection is silent; any other error is shown with its message. */
  function MintNFT(page: Page, st: MintSettings, content: ContentItem): (r: MintRun)
    ensures CheckPreconditions(page, st, content).Stop? ==>
              var stop := CheckPreconditions(page, st, content);
              && r.page == page.(session := stop.session, mintStatus := stop.message, dialogOpen := true)
              && r.loadingTrace == [] && r.requested.None?
    ensures CheckPreconditions(page, st, content).Proceed? ==>
              && r.loadingTrace == [Some(content.id), None]
              && r.page.mintLoadingId.None?
              && r.page.session == CheckPreconditions(page, st, content).session
              && r.requested == TryMint(st, content, page.session.account.value).requested
    ensures CheckPreconditions(page, st, content).Proceed?
            && TryMint(st, content, page.session.account.value).outcome.Mined? ==>
              && r.page.minted == page.minted + {Canon(content.id)}
              && r.page.mintStatus == MintedMessage && r.page.dialogOpen
    ensures r.requested.Some? ==> CheckPreconditions(page, st, content).Proceed?
    ensures r.page.minted == page.minted || r.page.minted == page.minted + {Canon(content.id)}
    ensures Canon(content.id) in r.page.minted && Canon(content.id) !in page.minted ==>
              && r.requested.Some? && st.submit.Mined?
              && r.page.mintStatus == MintedMessage && r.page.dialogOpen
    ensures r.requested.Some? && st.submit.Mined? ==>
              r.page.minted == page.minted + {Canon(content.id)} && r.page.mintStatus == MintedMessage
    ensures CheckPreconditions(page, st, content).Proceed? && TryMint(st, content, page.session.account.value).outcome.TxFailed? ==>
              var e := TryMint(st, content, page.session.account.value).outcome.error;
              && r.page.minted == page.minted
              && (IsUserRejection(e) ==>
                    r.page.mintStatus == page.mintStatus && r.page.dialogOpen == page.dialogOpen)
              && (!IsUserRejection(e) ==>
                    r.page.mintStatus == ErrorPrefix + e.MessageText() && r.page.dialogOpen)
  {
    match CheckPreconditions(page, st, content)
    case Stop(session, message) =>
      MintRun(page.(session := session, mintStatus := message, dialogOpen := true), [], None)
    case Proceed(session) =>
      var loading := page.(session := session, mintLoadingId := Some(content.id));
      var attempt := TryMint(st, content, page.session.account.value);
      var settled :=
        match attempt.outcome
        case Mined(_) =>
          loading.(mintStatus := MintedMessage, dialogOpen := true,
                   minted := loading.minted + {Canon(content.id)})
        case TxFailed(e) =>
          if IsUserRejection(e) then loading
          else loading.(mintStatus := ErrorPrefix + e.MessageText(), dialogOpen := true);
      MintRun(settled.(mintLoadingId := None), [Some(content.id), None], attempt.requested)
  }

  /** The reconciler and the precondition chain agree. For a connected
      wallet on a valid network and an item that is not the one loading, the
      button is enabled exactly when a click would get past every check to
      the submission, provided both read the same switches, protection
      answers and minted set. */
  lemma EnabledIffChecksPass(s: Snapshot, page: Page, st: MintSettings, content: ContentItem)
    requires Connected(page.session)
    requires CheckNetwork(st.chain, st.provider, page.session).ok
    requires !s.networkMismatch
    requires s.mintLoadingId != Some(content.id)
    requires s.flags == st.flags && s.isProtected == st.isProtected
    requires s.hasProvider == st.provider.Injected? && s.protection == st.protection
    requires s.minted == page.minted
    ensures !IsDisabled(s, content.id) <==> CheckPreconditions(page, st, content).Proceed?
  {
  }

  /** A button the reconciler disables can only be blocked by the chain or
      by the loading marker or the stale mismatch flag; conversely every
      item whose checks stop the mint is shown disabled, whatever the
      loading marker. */
  lemma StoppedItemsAreShownDisabled(s: Snapshot, page: Page, st: MintSettings, content: ContentItem)
    requires Connected(page.session)
    requires CheckNetwork(st.chain, st.provider, page.session).ok
    requires s.flags == st.flags && s.isProtected == st.isProtected
    requires s.hasProvider == st.provider.Injected? && s.protection == st.protection
    requires s.minted == page.minted
    requires CheckPreconditions(page, st, content).Stop?
    ensures IsDisabled(s, content.id)
  {
  }

  /** After a mint that succeeds, the next recompute with the minted check on
      disables the item, and a second click stops at the minted check. */
  lemma MintedItemIsDisabledAfterwards(page: Page, st: MintSettings, content: ContentItem, s: Snapshot)
    requires MintNFT(page, st, content).requested.Some? && st.submit.Mined?
    requires st.flags.checkMinted && s.flags.checkMinted
    requires s.minted == MintNFT(page, st, content).page.minted
    ensures IsDisabled(s, content.id)
    ensures CheckPreconditions(MintNFT(page, st, content).page, st, content).Stop?
  {
  }

  /** A mint may start while another item is loading: the loading marker of
      one item blocks neither the other item's button nor its checks. */
  lemma OtherItemMayMintWhileLoading(page: Page, st: MintSettings, content: ContentItem, other: ContentId)
    requires other != content.id
    requires page.mintLoadingId == Some(other)
    requires CheckPreconditions(page, st, content).Proceed?
    ensures MintNFT(page, st, content).loadingTrace == [Some(content.id), None]
    ensures MintNFT(page, st, content).page.mintLoadingId.None?
  {
  }

  /** With the contract-protection check on and the contract unprotected, a
      connected user on a valid network gets the protected-mode message and
      no transaction. */
  lemma UnprotectedContractStopsMint(page: Page, st: MintSettings, content: ContentItem)
    requires Connected(page.session)
    requires CheckNetwork(st.chain, st.provider, page.session).ok
    requires st.flags.checkCoreProtected && !st.isProtected
    ensures MintNFT(page, st, content).page.mintStatus == NotProtectedModeMessage
    ensures MintNFT(page, st, content).requested.None?
    ensures MintNFT(page, st, content).page.mintLoadingId == page.mintLoadingId
  {
  }

  /** The mint page's Disconnect button as written (index.js:66-70). The
      handler calls `disconnectAccount`, but that name is not among those the
      page reads from `useWallet()` (index.js:17), so the call throws a
      ReferenceError after the reconnect and spinner flags are cleared, and
      the wallet session is left as it was. */
  function HandleDisconnectAsWritten(page: Page): Page {
    page
  }

  /** The Disconnect button as evidently intended: the wallet's
      `disconnectAccount`, and nothing else on the page changes. */
  function HandleDisconnect(page: Page): (r: Page)
    ensures !Connected(r.session) && !r.session.networkMismatch
    ensures r.session.message == page.session.message && r.session.dialogOpen == page.session.dialogOpen
    ensures r == page.(session := r.session)
  {
    DisconnectedIsNotConnected(page.session);
    page.(session := DisconnectAccount(page.session))
  }

  /** As written, pressing Disconnect does not stop a connected user from
      minting: a click that would have gone ahead still goes ahead and
      requests its transaction. */
  lemma DisconnectButtonLeavesMintOpen(page: Page, st: MintSettings, content: ContentItem)
    requires CheckPreconditions(page, st, content).Proceed?
    requires st.parse(content.content).Parsed? && st.mintPrice.Some?
    ensures Connected(HandleDisconnectAsWritten(page).session)
    ensures MintNFT(HandleDisconnectAsWritten(page), st, content).requested.Some?
  {
  }

  /** After the intended disconnect, a click on any item stops at the first
      check: the connect-wallet message, no loading marker, no transaction. */
  lemma DisconnectStopsMint(page: Page, st: MintSettings, content: ContentItem)
    ensures var r := MintNFT(HandleDisconnect(page), st, content);
            && r.page.mintStatus == ConnectWalletMessage && r.page.dialogOpen
            && r.loadingTrace == [] && r.requested.None?
            && r.page.minted == page.minted
  {
  }
}

=== FILE: scans.dfy ===
/** The two token-ledger scans of the front end. Both walk token ids
    `0 .. totalSupply-1` in order and probe each id with `ownerOf`, skipping
    ids whose probe throws (burned or never minted). They differ in what a
    later failure costs: the minted-content scan of the mint page skips just
    that id, while the owned-NFT listing of the list page throws the whole
    listing away. Contract calls are answers of one chain snapshot. */
module Scans {
  import opened Basics
  import opened Text
  import opened Json
  import opened BigNumber
  import Wallet

  /** `contract.ownerOf(i)` and `contract.tokenURI(i)`; `None` means the
      call threw. */
  datatype TokenReads = TokenReads(ownerOf: nat -> Option<Address>, tokenURI: nat -> Option<string>)

  /** `isValidTokenId(contract, id)`: the ownership probe succeeds. */
  predicate IsValidTokenId(chain: TokenReads, id: nat) {
    chain.ownerOf(id).Some?
  }

  /** The iterations `i < s` allows for a string `s`, which JavaScript
      converts with `Number(s)`: unsigned or `+`-signed decimal digits, or
      `0x`/`0X` and hex digits, give their value; the empty string is 0; a
      leading `-` gives a negative number or NaN; anything else is NaN here.
      NaN and negative bounds run no iteration. */
  function StringBound(s: string): (n: nat)
    ensures |s| > 0 && s[0] == '-' ==> n == 0
    ensures |s| > 0 && AllDigitsIn(s, 10) ==> n == ValueOf(s, 10)
    ensures |s| > 1 && s[0] == '+' && AllDigitsIn(s[1..], 10) ==> n == ValueOf(s[1..], 10)
    ensures |s| > 2 && s[0] == '0' && (s[1] == 'x' || s[1] == 'X') && AllDigitsIn(s[2..], 16)
            ==> n == ValueOf(s[2..], 16)
    ensures s == "" ==> n == 0
    ensures n > 0 ==>
              || AllDigitsIn(s, 10)
              || (|s| > 1 && s[0] == '+' && AllDigitsIn(s[1..], 10))
              || (|s| > 2 && s[0] == '0' && AllDigitsIn(s[2..], 16))
  {
    if |s| > 0 && AllDigitsIn(s, 10) then ValueOf(s, 10)
    else if |s| > 1 && s[0] == '+' && AllDigitsIn(s[1..], 10) then ValueOf(s[1..], 10)
    else if |s| > 2 && s[0] == '0' && (s[1] == 'x' || s[1] == 'X') && AllDigitsIn(s[2..], 16)
    then ValueOf(s[2..], 16)
    else 0
  }

  /** How many iterations `for (let i = 0; i < totalSupply; i++)` makes
      for the value the gateway returned. A number bounds the loop itself,
      `true` compares as 1, a string is converted to a number, and an array
      is first printed with `String`; `null`, `false` and objects
      (`"[object Object]"` is NaN) run no iteration. */
  function LoopBound(supply: Json): (n: nat)
    ensures supply.JNum? && supply.n > 0 ==> n == supply.n
    ensures supply.JNum? && supply.n <= 0 ==> n == 0
    ensures supply == JBool(true) ==> n == 1
    ensures supply == JBool(false) ==> n == 0
    ensures supply == Wallet.Sentinel || supply.JNull? || supply.JObj? ==> n == 0
    ensures supply.JStr? ==> n == StringBound(supply.s)
    ensures supply.JArr? ==> n == StringBound(JsString(supply))
  {
    match supply
    case JNum(n) => if n > 0 then n else 0
    case JBool(b) => if b then 1 else 0
    case JStr(s) => StringBound(s)
    case JArr(_) => StringBound(JsString(supply))
    case _ => 0
  }

  /** A supply answered as decimal text, or as a one-element array holding
      the number, runs as many iterations as the number itself. */
  lemma TextualSupplyBound(k: nat)
    ensures LoopBound(JStr(DecimalOf(k))) == k
    ensures k < ExponentialFrom ==> LoopBound(JArr([JNum(k)])) == k
  {
    DigitsRoundTrip(k, 10);
    if k < ExponentialFrom {
      assert JsString(JArr([JNum(k)])) == DecimalOf(k);
    }
  }

  /** The canonical content id that token `i` adds to the minted set, if
      any: the token must exist, its URI must be readable and parse, its
      `contentId` must be truthy (so a numeric 0 never counts), and
      `BigNumber.from` must accept it. Any throw on the way skips only this
      id. */
  function MintedContribution(chain: TokenReads, parse: string -> ParseResult, i: nat)
    : (r: Option<string>)
    ensures r.Some? ==> IsValidTokenId(chain, i) && chain.tokenURI(i).Some?
    ensures r.Some? ==> exists j: int :: r.value == IntToString(j)
    ensures IsValidTokenId(chain, i) && chain.tokenURI(i).Some?
            && parse(chain.tokenURI(i).value).Parsed? ==>
              var data := parse(chain.tokenURI(i).value).value;
              && (Get(data, "contentId") == Some(JNum(0)) ==> r.None?)
              && r == (if Get(data, "contentId").Some? && Truthy(Get(data, "contentId").value)
                       then CanonicalString(Get(data, "contentId").value) else None)
              && (Get(data, "contentId").Some? && Truthy(Get(data, "contentId").value) ==>
                    r == CanonicalString(Get(data, "contentId").value))
    ensures (IsValidTokenId(chain, i) && chain.tokenURI(i).Some?
             && parse(chain.tokenURI(i).value).SyntaxError?) ==> r.None?
  {
    if !IsValidTokenId(chain, i) then None
    else match chain.tokenURI(i)
      case None => None
      case Some(uri) =>
        match parse(uri)
        case SyntaxError(_) => None
        case Parsed(data) =>
          match Get(data, "contentId")
          case None => None
          case Some(c) => if Truthy(c) then CanonicalString(c) else None
  }

  /** The set the scan of ids `0 .. n-1` produces. */
  function MintedUpTo(chain: TokenReads, parse: string -> ParseResult, n: nat): set<string> {
    set i | 0 <= i < n && MintedContribution(chain, parse, i).Some?
      :: MintedContribution(chain, parse, i).value
  }

  lemma MintedUpToStep(chain: TokenReads, parse: string -> ParseResult, n: nat)
    ensures MintedUpTo(chain, parse, n + 1)
         == MintedUpTo(chain, parse, n)
            + (if MintedContribution(chain, parse, n).Some?
               then {MintedContribution(chain, parse, n).value} else {})
  {
  }

  /** `fetchMintedContents()`, given whether a wallet is injected and what
      the guarded `totalSupply` call returned. Without a wallet, or when the
      gateway answers `false`, the previous set is kept; otherwise the result
      is the freshly scanned set, whatever the previous one was. */
  method FetchMintedContents(hasProvider: bool, supply: Json, chain: TokenReads,
                             parse: string -> ParseResult, previous: set<string>)
    returns (minted: set<string>)
    ensures !hasProvider || supply == Wallet.Sentinel ==> minted == previous
    ensures hasProvider && supply != Wallet.Sentinel ==>
              minted == MintedUpTo(chain, parse, LoopBound(supply))
    ensures hasProvider && supply != Wallet.Sentinel ==>
              forall c :: c in minted <==>
                exists i :: 0 <= i < LoopBound(supply) && MintedContribution(chain, parse, i) == Some(c)
  {
    if !hasProvider {
      return previous;
    }
    if supply == Wallet.Sentinel {
      return previous;
    }
    var n := LoopBound(supply);
    var found: set<string> := {};
    var i := 0;
    while i < n
      invariant 0 <= i <= n
      invariant found == MintedUpTo(chain, parse, i)
    {
      MintedUpToStep(chain, parse, i);
      if IsValidTokenId(chain, i) {
        var uri := chain.tokenURI(i);
        if uri.Some? {
          var data := parse(uri.value);
          if data.Parsed? {
            var cid := Get(data.value, "contentId");
            if cid.Some? && Truthy(cid.value) {
              var canonical := CanonicalString(cid.value);
              if canonical.Some? {
                found := found + {canonical.value};
              }
            }
          }
        }
      }
      i := i + 1;
    }
    minted := found;
    forall c | c in minted
      ensures exists i :: 0 <= i < n && MintedContribution(chain, parse, i) == Some(c)
    {
      var i :| 0 <= i < n && MintedContribution(chain, parse, i).Some?
               && MintedContribution(chain, parse, i).value == c;
    }
  }

  /** The ids `0 .. n-1` whose ownership probe succeeds, in increasing
      order. */
  function LiveIds(chain: TokenReads, n: nat): (ids: seq<nat>)
    ensures forall k :: 0 <= k < |ids| ==> ids[k] < n && IsValidTokenId(chain, ids[k])
    ensures forall k, m :: 0 <= k < m < |ids| ==> ids[k] < ids[m]
    ensures forall i :: 0 <= i < n && IsValidTokenId(chain, i) ==> i in ids
    decreases n
  {
    if n == 0 then []
    else LiveIds(chain, n - 1) + (if IsValidTokenId(chain, n - 1) then [n - 1] else [])
  }

  /** `owner.toLowerCase() === userAddress.toLowerCase()`. */
  function IsOwnedByUser(owner: Address, user: Address): (r: bool)
    ensures r <==> |owner| == |user|
                   && forall i :: 0 <= i < |owner| ==> LowerChar(owner[i]) == LowerChar(user[i])
  {
    var a := LowerString(owner);
    var b := LowerString(user);
    assert |a| == |owner| && |b| == |user|;
    assert forall i :: 0 <= i < |owner| ==> a[i] == LowerChar(owner[i]);
    assert forall i :: 0 <= i < |user| ==> b[i] == LowerChar(user[i]);
    a == b
  }

  /** One entry of the list page. */
  datatype NftEntry = NftEntry(tokenId: nat, metadata: Json, owner: Address, isOwnedByUser: bool)

  /** Every read the listing needs succeeds: each live id's URI is readable
      and parses, and a user address is present whenever there is an entry to
      compare it with (`null.toLowerCase()` throws). */
  predicate ListingReadable(chain: TokenReads, parse: string -> ParseResult,
                           user: Option<Address>, ids: seq<nat>)
  {
    && (forall k :: 0 <= k < |ids| ==>
          chain.tokenURI(ids[k]).Some? && parse(chain.tokenURI(ids[k]).value).Parsed?)
    && (|ids| > 0 ==> user.Some?)
  }

  /** What `fetchNFTs(userAddress)` returns for the value the guarded
      `totalSupply` call returned: all live tokens in id order, or `[]` when
      the gateway failed or any read or parse on the way threw. */
  function Listing(supply: Json, chain: TokenReads, parse: string -> ParseResult,
                   user: Option<Address>): (nfts: seq<NftEntry>)
    ensures supply == Wallet.Sentinel ==> nfts == []
    ensures forall k :: 0 <= k < |nfts| ==>
              && nfts[k].tokenId < LoopBound(supply)
              && chain.ownerOf(nfts[k].tokenId) == Some(nfts[k].owner)
              && chain.tokenURI(nfts[k].tokenId).Some?
              && parse(chain.tokenURI(nfts[k].tokenId).value) == Parsed(nfts[k].metadata)
              && user.Some? && nfts[k].isOwnedByUser == IsOwnedByUser(nfts[k].owner, user.value)
    ensures forall k, m :: 0 <= k < m < |nfts| ==> nfts[k].tokenId < nfts[m].tokenId
    ensures supply != Wallet.Sentinel && nfts == [] ==>
              LiveIds(chain, LoopBound(supply)) == []
              || !ListingReadable(chain, parse, user, LiveIds(chain, LoopBound(supply)))
    ensures supply != Wallet.Sentinel && !ListingReadable(chain, parse, user, LiveIds(chain, LoopBound(supply))) ==>
              nfts == []
    ensures supply != Wallet.Sentinel && ListingReadable(chain, parse, user, LiveIds(chain, LoopBound(supply))) ==>
              var ids := LiveIds(chain, LoopBound(supply));
              |nfts| == |ids| && forall k :: 0 <= k < |ids| ==> nfts[k].tokenId == ids[k]
  {
    if supply == Wallet.Sentinel then []
    else
      var ids := LiveIds(chain, LoopBound(supply));
      if !ListingReadable(chain, parse, user, ids) then []
      else
        seq(|ids|, k requires 0 <= k < |ids| =>
          var owner := chain.ownerOf(ids[k]).value;
          NftEntry(ids[k], parse(chain.tokenURI(ids[k]).value).value, owner,
                   IsOwnedByUser(owner, user.value)))
  }

  /** The first loop of `fetchNFTs`: for each live id, read its URI and its
      owner again. `ok` is false when some `tokenURI` threw, which abandons
      the loop. */
  method CollectLiveTokens(n: nat, chain: TokenReads)
    returns (ok: bool, pending: seq<(nat, string, Address)>)
    ensures ok <==> forall k :: 0 <= k < |LiveIds(chain, n)| ==> chain.tokenURI(LiveIds(chain, n)[k]).Some?
    ensures ok ==> |pending| == |LiveIds(chain, n)|
    ensures ok ==> forall k :: 0 <= k < |pending| ==>
                  && pending[k].0 == LiveIds(chain, n)[k]
                  && chain.tokenURI(pending[k].0) == Some(pending[k].1)
                  && chain.ownerOf(pending[k].0) == Some(pending[k].2)
  {
    pending := [];
    var i := 0;
    while i < n
      invariant 0 <= i <= n
      invariant |pending| == |LiveIds(chain, i)|
      invariant forall k :: 0 <= k < |pending| ==>
                  && pending[k].0 == LiveIds(chain, i)[k]
                  && chain.tokenURI(pending[k].0) == Some(pending[k].1)
                  && chain.ownerOf(pending[k].0) == Some(pending[k].2)
    {
      if IsValidTokenId(chain, i) {
        var uri := chain.tokenURI(i);
        if uri.None? {
          assert i in LiveIds(chain, n);
          return false, [];
        }
        var owner := chain.ownerOf(i);
        pending := pending + [(i, uri.value, owner.value)];
      }
      i := i + 1;
    }
    return true, pending;
  }

  /** The `Promise.all` of `fetchNFTs`: parse each URI and compare each owner
      with the user. `ok` is false when a parse threw or there is an owner to
      compare with no user. */
  method ParseLiveTokens(pending: seq<(nat, string, Address)>, parse: string -> ParseResult,
                         user: Option<Address>)
    returns (ok: bool, nfts: seq<NftEntry>)
    ensures ok <==> (forall k :: 0 <= k < |pending| ==> parse(pending[k].1).Parsed?)
                    && (|pending| > 0 ==> user.Some?)
    ensures ok ==> |nfts| == |pending|
    ensures ok ==> forall k :: 0 <= k < |pending| ==>
                  nfts[k] == NftEntry(pending[k].0, parse(pending[k].1).value, pending[k].2,
                                      IsOwnedByUser(pending[k].2, user.value))
  {
    nfts := [];
    var k := 0;
    while k < |pending|
      invariant 0 <= k <= |pending|
      invariant |nfts| == k
      invariant k > 0 ==> user.Some?
      invariant forall m :: 0 <= m < k ==>
                  && parse(pending[m].1).Parsed?
                  && nfts[m] == NftEntry(pending[m].0, parse(pending[m].1).value, pending[m].2,
                                         IsOwnedByUser(pending[m].2, user.value))
    {
      var metadata := parse(pending[k].1);
      if metadata.SyntaxError? || user.None? {
        return false, [];
      }
      nfts := nfts + [NftEntry(pending[k].0, metadata.value, pending[k].2,
                               IsOwnedByUser(pending[k].2, user.value))];
      k := k + 1;
    }
    return true, nfts;
  }

  /** `fetchNFTs(userAddress)`, given whether a wallet is injected. Without
      one, building the provider throws before the `try`, so the call
      rejects (`None`). The gateway's `false` makes the code call an
      undeclared `setError`, which throws, and the catch returns `[]`; a
      throwing `tokenURI` or `JSON.parse` also lands in that catch. */
  method FetchNFTs(hasProvider: bool, supply: Json, chain: TokenReads,
                   parse: string -> ParseResult, user: Option<Address>)
    returns (nfts: Option<seq<NftEntry>>)
    ensures nfts.None? <==> !hasProvider
    ensures hasProvider ==> nfts == Some(Listing(supply, chain, parse, user))
  {
    if !hasProvider {
      return None;
    }
    if supply == Wallet.Sentinel {
      return Some([]);
    }
    var n := LoopBound(supply);
    ghost var ids := LiveIds(chain, n);
    var read, pending := CollectLiveTokens(n, chain);
    if !read {
      return Some([]);
    }
    var parsed, entries := ParseLiveTokens(pending, parse, user);
    if !parsed {
      return Some([]);
    }
    assert ListingReadable(chain, parse, user, ids);
    assert entries == Listing(supply, chain, parse, user);
    nfts := Some(entries);
  }

  /** The list page's view state. */
  datatype ListView = ListView(nfts: seq<NftEntry>, loading: bool)

  /** `loadNFTs()`: under a network mismatch nothing is fetched and the
      spinner stops. Otherwise the spinner starts and the listing replaces the
      shown entries; when the fetch rejects (no wallet), the rejection
      escapes before either setter runs, so the spinner keeps turning over
      the old entries. */
  method LoadNFTs(view: ListView, networkMismatch: bool, hasProvider: bool, supply: Json,
                  chain: TokenReads, parse: string -> ParseResult, user: Option<Address>)
    returns (view': ListView, fetched: bool)
    ensures fetched <==> !networkMismatch
    ensures networkMismatch ==> view' == view.(loading := false)
    ensures !networkMismatch && !hasProvider ==> view' == view.(loading := true)
    ensures !networkMismatch && hasProvider ==>
              view' == ListView(Listing(supply, chain, parse, user), false)
  {
    if networkMismatch {
      return view.(loading := false), false;
    }
    var started := view.(loading := true);
    var nfts := FetchNFTs(hasProvider, supply, chain, parse, user);
    if nfts.None? {
      return started, true;
    }
    return ListView(nfts.value, false), true;
  }
}

=== FILE: spen.dfy ===
/** The SPEN NFT contract as the front end sees it, reduced to the behaviour
    its test suite asserts: sequential token ids, a total supply that counts
    every token ever minted (burning does not lower it), a token URI stored
    verbatim, reverts for unknown or burned ids, one live token per content
    id, the minting switch, and the payment guards. The Solidity source is
    not part of this model; this ledger is the environment the front end's
    scans run against. */
module Spen {
  import opened Basics

  const ZeroAddress: Address := "0x0000000000000000000000000000000000000000"

  const InvalidTokenId: string := "ERC721: invalid token ID"
  const MintingDisabled: string := "Minting is currently disabled"
  const AlreadyMinted: string := "Content has already been minted"
  const InsufficientFunds: string := "Insufficient funds to mint"
  const TransferExceedsBalance: string := "ERC20: transfer amount exceeds balance"
  const NotOwnerOrApproved: string := "ERC721: caller is not token owner or approved"

  /** A live token: its owner, the metadata string given at mint, and the
      content id it was minted for. */
  datatype Token = Token(owner: Address, uri: string, contentId: ContentId)

  /** Slot `i` of `tokens` is token id `i`: `None` once burned. */
  datatype Ledger = Ledger(
    tokens: seq<Option<Token>>,
    mintingEnabled: bool,
    mintPrice: nat,
    paymentToken: Address)

  /** A transaction or call: its result, or a revert with its reason. */
  datatype Call<T> = Done(value: T) | Reverted(reason: string)

  /** What the minter pays with: the ether sent, and whether the minter's
      ERC20 balance and allowance cover the price (the token contract itself
      is not part of this model). */
  datatype Payment = Payment(value: nat, erc20Covered: bool)

  datatype Minted = Minted(ledger: Ledger, tokenId: nat)

  /** A freshly deployed contract: minting on, free, paid in ether. */
  function Deploy(): Ledger {
    Ledger([], true, 0, ZeroAddress)
  }

  function TotalSupply(l: Ledger): nat {
    |l.tokens|
  }

  predicate Exists(l: Ledger, id: nat) {
    id < |l.tokens| && l.tokens[id].Some?
  }

  function OwnerOf(l: Ledger, id: nat): (r: Call<Address>)
    ensures r.Done? <==> Exists(l, id)
    ensures r.Done? ==> r.value == l.tokens[id].value.owner
    ensures r.Reverted? ==> r.reason == InvalidTokenId
  {
    if Exists(l, id) then Done(l.tokens[id].value.owner) else Reverted(InvalidTokenId)
  }

  function TokenURI(l: Ledger, id: nat): (r: Call<string>)
    ensures r.Done? <==> Exists(l, id)
    ensures r.Done? ==> r.value == l.tokens[id].value.uri
    ensures r.Reverted? ==> r.reason == InvalidTokenId
  {
    if Exists(l, id) then Done(l.tokens[id].value.uri) else Reverted(InvalidTokenId)
  }

  /** Some live token was minted for `cid`. */
  predicate ContentLive(l: Ledger, cid: ContentId) {
    exists i :: 0 <= i < |l.tokens| && l.tokens[i].Some? && l.tokens[i].value.contentId == cid
  }

  /** The payment guard: free when the price is zero, otherwise the ether sent
      must reach the price, or the ERC20 transfer must be covered. */
  function PaymentCheck(l: Ledger, pay: Payment): Call<()> {
    if l.mintPrice == 0 then Done(())
    else if l.paymentToken == ZeroAddress then
      if pay.value < l.mintPrice then Reverted(InsufficientFunds) else Done(())
    else if !pay.erc20Covered then Reverted(TransferExceedsBalance)
    else Done(())
  }

  /** `mintNFT(to, tokenURI, contentId)`. The new token takes the next id,
      which is the old total supply. */
  function MintNFT(l: Ledger, to: Address, uri: string, cid: ContentId, pay: Payment)
    : (r: Call<Minted>)
    ensures r.Done? <==> l.mintingEnabled && !ContentLive(l, cid) && PaymentCheck(l, pay).Done?
    ensures !l.mintingEnabled ==> r == Reverted(MintingDisabled)
    ensures l.mintingEnabled && ContentLive(l, cid) ==> r == Reverted(AlreadyMinted)
    ensures r.Done? ==>
              var l' := r.value.ledger;
              && r.value.tokenId == TotalSupply(l)
              && TotalSupply(l') == TotalSupply(l) + 1
              && TokenURI(l', r.value.tokenId) == Done(uri)
              && OwnerOf(l', r.value.tokenId) == Done(to)
              && l'.tokens == l.tokens + [Some(Token(to, uri, cid))]
              && l'.tokens[..TotalSupply(l)] == l.tokens
              && l'.mintingEnabled == l.mintingEnabled && l'.mintPrice == l.mintPrice
              && l'.paymentToken == l.paymentToken
  {
    if !l.mintingEnabled then Reverted(MintingDisabled)
    else if ContentLive(l, cid) then Reverted(AlreadyMinted)
    else
      match PaymentCheck(l, pay)
      case Reverted(reason) => Reverted(reason)
      case Done(_) =>
        var l' := l.(tokens := l.tokens + [Some(Token(to, uri, cid))]);
        assert l'.tokens[..TotalSupply(l)] == l.tokens;
        Done(Minted(l', TotalSupply(l)))
  }

  /** `burn(tokenId)` by its owner. */
  function Burn(l: Ledger, caller: Address, id: nat): (r: Call<Ledger>)
    ensures r.Done? <==> Exists(l, id) && l.tokens[id].value.owner == caller
    ensures !Exists(l, id) ==> r == Reverted(InvalidTokenId)
    ensures r.Done? ==>
              && TotalSupply(r.value) == TotalSupply(l)
              && !Exists(r.value, id)
              && (forall j :: 0 <= j < |l.tokens| && j != id ==> r.value.tokens[j] == l.tokens[j])
              && r.value.mintingEnabled == l.mintingEnabled && r.value.mintPrice == l.mintPrice
              && r.value.paymentToken == l.paymentToken
  {
    if !Exists(l, id) then Reverted(InvalidTokenId)
    else if l.tokens[id].value.owner != caller then Reverted(NotOwnerOrApproved)
    else Done(l.(tokens := l.tokens[id := None]))
  }

  function SetMintingEnabled(l: Ledger, enabled: bool): Ledger {
    l.(mintingEnabled := enabled)
  }

  function SetMintPrice(l: Ledger, price: nat): Ledger {
    l.(mintPrice := price)
  }

  function SetPaymentToken(l: Ledger, token: Address): Ledger {
    l.(paymentToken := token)
  }

  datatype MintConfig = MintConfig(
    mintingEnabled: bool,
    mintPrice: nat,
    paymentTokenAddress: Address,
    isFreeMint: bool,
    paymentTokenSymbol: string)

  /** `getMintConfig()`. `symbolOf` is the ERC20 token's `symbol()`. The
      contract reports a mint as free when the price is zero or the payment
      token is the zero address. */
  function GetMintConfig(l: Ledger, symbolOf: Address -> string): (c: MintConfig)
    ensures c.mintingEnabled == l.mintingEnabled && c.mintPrice == l.mintPrice
    ensures c.paymentTokenAddress == l.paymentToken
    ensures l.mintPrice > 0 && l.paymentToken != ZeroAddress ==> !c.isFreeMint
    ensures l.paymentToken == ZeroAddress ==> c.paymentTokenSymbol == "ETH"
    ensures l.paymentToken != ZeroAddress ==> c.paymentTokenSymbol == symbolOf(l.paymentToken)
  {
    var isZero := l.paymentToken == ZeroAddress;
    MintConfig(l.mintingEnabled, l.mintPrice, l.paymentToken,
               l.mintPrice == 0 || isZero,
               if isZero then "ETH" else symbolOf(l.paymentToken))
  }

  /** The ledger invariant: no two live tokens share a content id. */
  ghost predicate Valid(l: Ledger) {
    forall i, j :: 0 <= i < j < |l.tokens| && l.tokens[i].Some? && l.tokens[j].Some?
      ==> l.tokens[i].value.contentId != l.tokens[j].value.contentId
  }

  lemma DeployValid()
    ensures Valid(Deploy()) && TotalSupply(Deploy()) == 0
  {
  }

  lemma MintPreservesValid(l: Ledger, to: Address, uri: string, cid: ContentId, pay: Payment)
    requires Valid(l)
    requires MintNFT(l, to, uri, cid, pay).Done?
    ensures Valid(MintNFT(l, to, uri, cid, pay).value.ledger)
  {
    var l' := MintNFT(l, to, uri, cid, pay).value.ledger;
    forall i, j | 0 <= i < j < |l'.tokens| && l'.tokens[i].Some? && l'.tokens[j].Some?
      ensures l'.tokens[i].value.contentId != l'.tokens[j].value.contentId
    {
      if j == |l.tokens| {
        assert l'.tokens[i] == l.tokens[i];
        assert !ContentLive(l, cid);
      } else {
        assert l'.tokens[i] == l.tokens[i] && l'.tokens[j] == l.tokens[j];
      }
    }
  }

  lemma BurnPreservesValid(l: Ledger, caller: Address, id: nat)
    requires Valid(l)
    requires Burn(l, caller, id).Done?
    ensures Valid(Burn(l, caller, id).value)
  {
  }

  /** A content id that is live cannot be minted again, whatever is paid. */
  lemma DuplicateContentReverts(l: Ledger, to: Address, uri: string, cid: ContentId, pay: Payment,
                                to2: Address, uri2: string, pay2: Payment)
    requires MintNFT(l, to, uri, cid, pay).Done?
    ensures MintNFT(MintNFT(l, to, uri, cid, pay).value.ledger, to2, uri2, cid, pay2)
         == Reverted(AlreadyMinted)
  {
    var m := MintNFT(l, to, uri, cid, pay).value;
    assert m.ledger.tokens[m.tokenId].value.contentId == cid;
  }

  /** Burning the only live token of a content id frees that id: the same
      content can be minted again, and it gets the next id, not the burned
      one. */
  lemma BurnFreesContent(l: Ledger, owner: Address, id: nat, to: Address, uri: string, pay: Payment)
    requires Valid(l)
    requires Burn(l, owner, id).Done?
    requires l.mintingEnabled && PaymentCheck(l, pay).Done?
    ensures var burned := Burn(l, owner, id).value;
            var cid := l.tokens[id].value.contentId;
            && OwnerOf(burned, id) == Reverted(InvalidTokenId)
            && TokenURI(burned, id) == Reverted(InvalidTokenId)
            && MintNFT(burned, to, uri, cid, pay).Done?
            && MintNFT(burned, to, uri, cid, pay).value.tokenId == TotalSupply(l)
  {
    var burned := Burn(l, owner, id).value;
    var cid := l.tokens[id].value.contentId;
    assert !ContentLive(burned, cid);
  }

  /** The wei in one ether (`parseEther("1")`). */
  const WeiPerEther: nat := 1_000_000_000_000_000_000

  /** With the owner setting a price and ether as the payment token, sending
      less than the price reverts and sending at least the price mints. */
  lemma EtherPriceGuard(l: Ledger, price: nat, to: Address, uri: string, cid: ContentId, covered: bool)
    requires l.mintingEnabled && !ContentLive(l, cid) && price > 0
    ensures var priced := SetPaymentToken(SetMintPrice(l, price), ZeroAddress);
            && (forall paid: nat :: paid < price ==>
                  MintNFT(priced, to, uri, cid, Payment(paid, covered)) == Reverted(InsufficientFunds))
            && (forall paid: nat :: paid >= price ==>
                  MintNFT(priced, to, uri, cid, Payment(paid, covered)).Done?)
  {
    var priced := SetPaymentToken(SetMintPrice(l, price), ZeroAddress);
    assert priced.tokens == l.tokens && priced.mintingEnabled;
    assert !ContentLive(priced, cid);
  }

  /** The test suite's configuration scenario: after setting a price of 20
      ether, an ERC20 payment token and enabling minting, the configuration
      reports them, the mint is not free, and the symbol is the token's;
      switching the payment token back to the zero address reports "ETH". */
  lemma MintConfigScenario(l: Ledger, token: Address, symbolOf: Address -> string)
    requires token != ZeroAddress
    ensures var configured := SetMintingEnabled(SetPaymentToken(SetMintPrice(l, 20 * WeiPerEther), token), true);
            var c := GetMintConfig(configured, symbolOf);
            && c.mintingEnabled && c.mintPrice == 20 * WeiPerEther
            && c.paymentTokenAddress == token
            && !c.isFreeMint && c.paymentTokenSymbol == symbolOf(token)
            && GetMintConfig(SetPaymentToken(configured, ZeroAddress), symbolOf).paymentTokenSymbol == "ETH"
  {
  }

  /** The test suite's remint scenario: mint, burn, mint the same content
      again; the total supply counts both mints. */
  lemma RemintScenario(owner: Address, uri: string, cid: ContentId)
    ensures var m1 := MintNFT(Deploy(), owner, uri, cid, Payment(0, false));
            && m1.Done? && m1.value.tokenId == 0
            && TotalSupply(m1.value.ledger) == 1
            && TokenURI(m1.value.ledger, 0) == Done(uri)
            && var b := Burn(m1.value.ledger, owner, 0);
            && b.Done? && TotalSupply(b.value) == 1
            && OwnerOf(b.value, 0) == Reverted(InvalidTokenId)
            && var m2 := MintNFT(b.value, owner, uri, cid, Payment(0, false));
            && m2.Done? && m2.value.tokenId == 1
            && TotalSupply(m2.value.ledger) == 2
            && TokenURI(m2.value.ledger, 1) == Done(uri)
  {
    var m1 := MintNFT(Deploy(), owner, uri, cid, Payment(0, false));
    var b := Burn(m1.value.ledger, owner, 0);
    assert !ContentLive(b.value, cid);
  }
}

=== FILE: text.dfy ===
/** Character and number-to-text helpers the front end relies on through
    JavaScript built-ins: positional digit strings (decimal for
    `BigNumber.toString()`, lower-case hex for `Number.toString(16)`), and
    the ASCII part of `toUpperCase`/`toLowerCase` and of the regular
    expression class `\w`. */
module Text {

  /** The radixes the front end prints numbers in. */
  type Radix = b: nat | b == 10 || b == 16 witness 10

  predicate IsDecimalDigit(c: char) {
    '0' <= c <= '9'
  }

  predicate IsHexDigit(c: char) {
    IsDecimalDigit(c) || 'a' <= c <= 'f' || 'A' <= c <= 'F'
  }

  predicate IsDigitIn(c: char, base: Radix) {
    if base == 10 then IsDecimalDigit(c) else IsHexDigit(c)
  }

  predicate AllDigitsIn(s: string, base: Radix) {
    forall i :: 0 <= i < |s| ==> IsDigitIn(s[i], base)
  }

  /** The lower-case digit character for `d`. */
  function DigitChar(d: nat): (c: char)
    requires d < 16
    ensures IsHexDigit(c) && (d < 10 ==> IsDecimalDigit(c))
    ensures c == '0' <==> d == 0
  {
    if d < 10 then ('0' as int + d) as char else ('a' as int + d - 10) as char
  }

  /** The value of a digit character, either case for hex letters. */
  function DigitValue(c: char): (d: nat)
    requires IsHexDigit(c)
    ensures d < 16
    ensures IsDecimalDigit(c) ==> d < 10
  {
    if IsDecimalDigit(c) then c as int - '0' as int
    else if 'a' <= c <= 'f' then c as int - 'a' as int + 10
    else c as int - 'A' as int + 10
  }

  /** The canonical digit string of `n`: no sign, no leading zero. */
  function DigitsOf(n: nat, base: Radix): (s: string)
    ensures |s| >= 1
    ensures AllDigitsIn(s, base)
    ensures s[0] == '0' <==> n == 0
    ensures n == 0 ==> s == "0"
    decreases n
  {
    if n < base then [DigitChar(n)]
    else DigitsOf(n / base, base) + [DigitChar(n % base)]
  }

  /** The value a digit string denotes (leading zeros allowed). */
  function ValueOf(s: string, base: Radix): nat
    requires AllDigitsIn(s, base)
    decreases |s|
  {
    if |s| == 0 then 0
    else ValueOf(s[..|s| - 1], base) * base + DigitValue(s[|s| - 1])
  }

  function DecimalOf(n: nat): string {
    DigitsOf(n, 10)
  }

  function HexOf(n: nat): string {
    DigitsOf(n, 16)
  }

  /** `String(i)` for an integer, and `BigNumber.toString()`. */
  function IntToString(i: int): string {
    if i < 0 then "-" + DecimalOf(-i) else DecimalOf(i)
  }

  /** Reading back the digits printed for `n` gives `n`. */
  lemma {:induction false} DigitsRoundTrip(n: nat, base: Radix)
    ensures ValueOf(DigitsOf(n, base), base) == n
    decreases n
  {
    var s := DigitsOf(n, base);
    if n >= base {
      assert s[..|s| - 1] == DigitsOf(n / base, base);
      DigitsRoundTrip(n / base, base);
    }
  }

  /** Distinct numbers print as distinct digit strings. */
  lemma DigitsInjective(a: nat, b: nat, base: Radix)
    ensures DigitsOf(a, base) == DigitsOf(b, base) ==> a == b
  {
    DigitsRoundTrip(a, base);
    DigitsRoundTrip(b, base);
  }

  function Pow10(k: nat): (p: nat)
    ensures p >= 1
  {
    if k == 0 then 1 else 10 * Pow10(k - 1)
  }

  function Zeros(k: nat): (z: string)
    ensures |z| == k && forall i :: 0 <= i < k ==> z[i] == '0'
  {
    seq(k, i => '0')
  }

  /** The last decimal digit of `n` is the digit of `n % 10`. */
  lemma LastDigit(n: nat)
    ensures DecimalOf(n)[|DecimalOf(n)| - 1] == DigitChar(n % 10)
  {
  }

  /** Multiplying by ten appends one zero digit. */
  lemma AppendZeroDigit(m: nat)
    requires m >= 1
    ensures DecimalOf(m * 10) == DecimalOf(m) + "0"
  {
    assert (m * 10) / 10 == m && (m * 10) % 10 == 0;
    assert DigitChar(0) == '0';
  }

  lemma TimesTen(a: nat, b: nat)
    ensures a * (10 * b) == (a * b) * 10
    ensures a >= 1 && b >= 1 ==> a * b >= 1
  {
    if a >= 1 && b >= 1 {
      assert a * b == (a - 1) * b + b;
    }
  }

  lemma PowerStep(n: nat, k: nat)
    requires n > 0 && k > 0
    ensures n * Pow10(k) == (n * Pow10(k - 1)) * 10
    ensures n * Pow10(k - 1) >= 1
  {
    TimesTen(n, Pow10(k - 1));
  }

  /** Multiplying by 10^k appends k zeros to the decimal digits. */
  lemma {:induction false} ShiftedDigits(n: nat, k: nat)
    requires n > 0
    ensures DecimalOf(n * Pow10(k)) == DecimalOf(n) + Zeros(k)
    decreases k
  {
    if k == 0 {
      assert Zeros(0) == "";
    } else {
      ShiftedDigits(n, k - 1);
      PowerStep(n, k);
      var m := n * Pow10(k - 1);
      AppendZeroDigit(m);
      assert Zeros(k) == Zeros(k - 1) + "0";
      assert DecimalOf(n * Pow10(k)) == (DecimalOf(n) + Zeros(k - 1)) + "0";
    }
  }

  /** A leading zero does not change the value of a digit string. */
  lemma {:induction false} LeadingZeroValue(s: string, base: Radix)
    requires AllDigitsIn(s, base)
    ensures AllDigitsIn("0" + s, base)
    ensures ValueOf("0" + s, base) == ValueOf(s, base)
    decreases |s|
  {
    var t := "0" + s;
    assert forall i :: 1 <= i < |t| ==> t[i] == s[i - 1];
    if |s| == 0 {
      assert t[..0] == "";
    } else {
      assert t[..|t| - 1] == "0" + s[..|s| - 1];
      LeadingZeroValue(s[..|s| - 1], base);
    }
  }

  /** The ASCII mapping of `String.prototype.toUpperCase` (the only
      characters the front end upper-cases are matched by `\w`). */
  function UpperChar(c: char): char {
    if 'a' <= c <= 'z' then (c as int - 32) as char else c
  }

  /** The ASCII mapping of `String.prototype.toLowerCase`. */
  function LowerChar(c: char): char {
    if 'A' <= c <= 'Z' then (c as int + 32) as char else c
  }

  function LowerString(s: string): string {
    seq(|s|, i requires 0 <= i < |s| => LowerChar(s[i]))
  }

  /** The regular-expression class `\w`: ASCII letters, digits and `_`. */
  predicate IsWordChar(c: char) {
    'a' <= c <= 'z' || 'A' <= c <= 'Z' || IsDecimalDigit(c) || c == '_'
  }
}

=== FILE: wallet.dfy ===
/** The wallet session of `WalletContext.js`: connecting an account, the
    network check with its switch-chain / add-chain fallback, the guarded
    contract call that every mint-relevant read goes through, and
    disconnecting. Every wallet RPC is an oracle answer fixed in advance. */
module Wallet {
  import opened Basics
  import opened Text
  import opened Json

  /** The process-wide session: the connected account, the mismatch flag, and
      the "wallet missing" notice (its text and whether its dialog is open). */
  datatype Session = Session(
    account: Option<Address>,
    networkMismatch: bool,
    message: string,
    dialogOpen: bool)

  /** `provider.getNetwork()`: the active chain id, or a throw. */
  datatype NetworkRead = ChainId(id: int) | GetNetworkThrows

  /** `wallet_switchEthereumChain`: accepted, or rejected with an error. */
  datatype SwitchReply = Switched | SwitchRejected(error: JsError)

  /** `wallet_addEthereumChain`: accepted, or thrown. */
  datatype AddReply = Added | AddThrows

  /** `eth_requestAccounts`: the account list, or a throw (user rejection,
      provider error). */
  datatype AccountsReply = Accounts(list: seq<Address>) | AccountsThrows

  /** What the injected wallet answers to each request of one operation. */
  datatype WalletEnv = WalletEnv(
    network: NetworkRead,
    switchReply: SwitchReply,
    addReply: AddReply,
    accounts: AccountsReply)

  /** `window.ethereum`: absent, or an injected wallet. */
  datatype Provider = NoProvider | Injected(env: WalletEnv)

  /** The environment-supplied chain settings. `networkName` is `None` when
      the variable is unset. */
  datatype ChainConfig = ChainConfig(
    expectedChainId: nat,
    rpcUrl: string,
    networkName: Option<string>)

  /** The chain-management requests sent to the wallet, in order. */
  datatype WalletRequest =
    | SwitchChain(chainId: string)
    | AddChain(chainId: string, rpcUrls: seq<string>, chainName: string)

  /** The outcome of `checkNetwork`: the new session, the returned boolean and
      the requests issued on the way. */
  datatype NetCheck = NetCheck(session: Session, ok: bool, requests: seq<WalletRequest>)

  /** The wallet error code for "this chain is not known to the wallet". */
  const UnrecognizedChain: int := 4902

  const WalletMissingMessage: string :=
    "MetaMask is not installed. Please install MetaMask to use this feature."

  /** `0x${expectedChainId.toString(16)}` */
  function ChainIdHex(cfg: ChainConfig): string {
    "0x" + HexOf(cfg.expectedChainId)
  }

  /** `name.charAt(0).toUpperCase() + name.slice(1)` */
  function DisplayName(name: string): (r: string)
    ensures |r| == |name|
    ensures |name| > 0 ==> r[0] == UpperChar(name[0]) && r[1..] == name[1..]
  {
    if |name| == 0 then "" else [UpperChar(name[0])] + name[1..]
  }

  /** `checkNetwork()`: on the expected chain the session is marked valid; on
      another chain a switch is requested, and if the wallet does not know the
      chain (code 4902) an add is requested and trusted. Any other switch
      error marks a mismatch; anything thrown on the way (the network read,
      the add request, an unset network name) is caught by the outer handler
      and also marks a mismatch. With no wallet nothing changes. */
  function CheckNetwork(cfg: ChainConfig, provider: Provider, s: Session): (r: NetCheck)
    // no wallet: false, and the session is untouched
    ensures provider.NoProvider? ==> r == NetCheck(s, false, [])
    // with a wallet the answer and the flag always agree
    ensures provider.Injected? ==> r.ok == !r.session.networkMismatch
    // only the mismatch flag may change
    ensures r.session == s.(networkMismatch := r.session.networkMismatch)
    // on the expected chain: valid, and no request is sent
    ensures provider.Injected? && provider.env.network == ChainId(cfg.expectedChainId)
            ==> r.ok && r.requests == []
    // a failed network read fails closed
    ensures provider.Injected? && provider.env.network.GetNetworkThrows?
            ==> !r.ok && r.requests == []
    // on another chain the first request is always the switch
    ensures provider.Injected? && provider.env.network.ChainId?
            && provider.env.network.id != cfg.expectedChainId
            ==> |r.requests| >= 1 && r.requests[0] == SwitchChain(ChainIdHex(cfg))
    // on another chain an accepted switch succeeds with the switch alone
    ensures provider.Injected? && provider.env.network.ChainId?
            && provider.env.network.id != cfg.expectedChainId
            && provider.env.switchReply.Switched?
            ==> r.ok && r.requests == [SwitchChain(ChainIdHex(cfg))]
    // any rejection code other than 4902 fails with the switch alone
    ensures provider.Injected? && provider.env.network.ChainId?
            && provider.env.network.id != cfg.expectedChainId
            && provider.env.switchReply.SwitchRejected?
            && provider.env.switchReply.error.code != NumCode(UnrecognizedChain)
            ==> !r.ok && r.requests == [SwitchChain(ChainIdHex(cfg))]
    // a 4902 rejection, whatever its message, leads to the add request; its
    // answer decides the result, and an unset network name fails before it
    ensures provider.Injected? && provider.env.network.ChainId?
            && provider.env.network.id != cfg.expectedChainId
            && provider.env.switchReply.SwitchRejected?
            && provider.env.switchReply.error.code == NumCode(UnrecognizedChain)
            ==> (if cfg.networkName.None?
                 then !r.ok && r.requests == [SwitchChain(ChainIdHex(cfg))]
                 else && r.ok == provider.env.addReply.Added?
                      && r.requests == [SwitchChain(ChainIdHex(cfg)),
                                        AddChain(ChainIdHex(cfg), [cfg.rpcUrl],
                                                 DisplayName(cfg.networkName.value))])
    // an add-chain request is issued only after a 4902 switch rejection
    ensures (exists i :: 0 <= i < |r.requests| && r.requests[i].AddChain?) ==>
            provider.Injected? && provider.env.switchReply.SwitchRejected?
            && provider.env.switchReply.error.code == NumCode(UnrecognizedChain)
    // it reports success only on the expected chain, after a switch, or after an add
    ensures r.ok ==>
              && provider.Injected?
              && (|| provider.env.network == ChainId(cfg.expectedChainId)
                  || provider.env.switchReply.Switched?
                  || provider.env.addReply.Added?)
  {
    match provider
    case NoProvider => NetCheck(s, false, [])
    case Injected(env) =>
      match env.network
      case GetNetworkThrows => NetCheck(s.(networkMismatch := true), false, [])
      case ChainId(id) =>
        if id == cfg.expectedChainId then
          NetCheck(s.(networkMismatch := false), true, [])
        else
          var switch := SwitchChain(ChainIdHex(cfg));
          match env.switchReply
          case Switched => NetCheck(s.(networkMismatch := false), true, [switch])
          case SwitchRejected(err) =>
            if err.code == NumCode(UnrecognizedChain) then
              match cfg.networkName
              // reading `.charAt` of an unset name throws before the request
              case None => NetCheck(s.(networkMismatch := true), false, [switch])
              case Some(name) =>
                var add := AddChain(ChainIdHex(cfg), [cfg.rpcUrl], DisplayName(name));
                if env.addReply.Added? then
                  NetCheck(s.(networkMismatch := false), true, [switch, add])
                else
                  NetCheck(s.(networkMismatch := true), false, [switch, add])
            else
              NetCheck(s.(networkMismatch := true), false, [switch])
  }

  /** The outcome of `callContractMethod`: the session after its network
      check, and the value the caller receives. */
  datatype GatewayResult = GatewayResult(session: Session, returned: Json, invoked: bool)

  /** The raw `false` the gateway returns on any failure. */
  const Sentinel: Json := JBool(false)

  /** `callContractMethod(contract, method, ...args)`: the method is invoked
      only after a successful network check; a failed check and a thrown
      error both come back as the raw value `false`. */
  function CallContractMethod(cfg: ChainConfig, provider: Provider, s: Session, call: CallOutcome)
    : (r: GatewayResult)
    ensures r.session == CheckNetwork(cfg, provider, s).session
    ensures r.invoked <==> CheckNetwork(cfg, provider, s).ok
    ensures !r.invoked ==> r.returned == Sentinel
    ensures r.invoked && call.Returns? ==> r.returned == call.value
    ensures call.Throws? ==> r.returned == Sentinel
  {
    var check := CheckNetwork(cfg, provider, s);
    if !check.ok then GatewayResult(check.session, Sentinel, false)
    else
      match call
      case Returns(v) => GatewayResult(check.session, v, true)
      case Throws(_) => GatewayResult(check.session, Sentinel, true)
  }

  /** The sentinel is a legitimate contract answer too: a view method that
      truly returns `false` is indistinguishable, to the caller, from a
      network failure or a revert. */
  lemma SentinelCollides(cfg: ChainConfig, provider: Provider, s: Session, err: JsError)
    requires CheckNetwork(cfg, provider, s).ok
    ensures CallContractMethod(cfg, provider, s, Returns(JBool(false))).returned
         == CallContractMethod(cfg, provider, s, Throws(err)).returned
    ensures CallContractMethod(cfg, provider, s, Returns(JBool(false))).returned
         == CallContractMethod(cfg, NoProvider, s, Returns(JBool(true))).returned
  {
  }

  /** The outcome of `requestAccount`: the session and the network-check
      requests sent after a successful connection. */
  datatype Connect = Connect(session: Session, requests: seq<WalletRequest>)

  /** `requestAccount()`: with a wallet, a successful request stores the first
      account (`accounts[0]`, `undefined` for an empty list) and then runs the
      network check; a thrown request is logged and swallowed. With no wallet
      the "not installed" notice is raised. */
  function RequestAccount(cfg: ChainConfig, provider: Provider, s: Session): (r: Connect)
    ensures provider.NoProvider? ==>
              r.session == s.(message := WalletMissingMessage, dialogOpen := true)
              && r.requests == []
    ensures provider.Injected? && provider.env.accounts.AccountsThrows? ==> r == Connect(s, [])
    ensures provider.Injected? && provider.env.accounts.Accounts? ==>
              var list := provider.env.accounts.list;
              && r.session.account == (if |list| > 0 then Some(list[0]) else None)
              && r.session.message == s.message && r.session.dialogOpen == s.dialogOpen
              && r.session.networkMismatch == !CheckNetwork(cfg, provider, s).ok
              && r.requests == CheckNetwork(cfg, provider, s).requests
  {
    match provider
    case NoProvider => Connect(s.(message := WalletMissingMessage, dialogOpen := true), [])
    case Injected(env) =>
      match env.accounts
      case AccountsThrows => Connect(s, [])
      case Accounts(list) =>
        var connected := s.(account := if |list| > 0 then Some(list[0]) else None);
        var check := CheckNetwork(cfg, provider, connected);
        Connect(check.session, check.requests)
  }

  /** `disconnectAccount()`: forget the account and the mismatch, nothing
      else; the wallet's own permission is not revoked. */
  function DisconnectAccount(s: Session): (r: Session)
    ensures r.account.None? && !r.networkMismatch
    ensures r.message == s.message && r.dialogOpen == s.dialogOpen
  {
    s.(account := None, networkMismatch := false)
  }

  /** `if (!userAccount)`: an absent or empty account is not connected. */
  predicate Connected(s: Session) {
    s.account.Some? && s.account.value != ""
  }

  /** The scenario of a wallet on another chain that does not know the
      expected one, whatever the rejection's message: the add request
      carries the configured RPC URL and the capitalised network name, and
      the check succeeds. */
  lemma UnknownChainIsAdded(cfg: ChainConfig, env: WalletEnv, s: Session)
    requires env.network.ChainId? && env.network.id != cfg.expectedChainId
    requires env.switchReply.SwitchRejected? && env.switchReply.error.code == NumCode(UnrecognizedChain)
    requires env.addReply.Added? && cfg.networkName.Some?
    ensures var r := CheckNetwork(cfg, Injected(env), s);
            && r.ok && !r.session.networkMismatch
            && r.requests == [SwitchChain(ChainIdHex(cfg)),
                              AddChain(ChainIdHex(cfg), [cfg.rpcUrl], DisplayName(cfg.networkName.value))]
  {
  }

  /** After a disconnect the network flag is clear and the session no
      longer counts as connected, whatever it was before. */
  lemma DisconnectedIsNotConnected(s: Session)
    ensures !Connected(DisconnectAccount(s)) && !DisconnectAccount(s).networkMismatch
    ensures DisconnectAccount(DisconnectAccount(s)) == DisconnectAccount(s)
  {
  }

  /** Connecting touches only the account and the mismatch flag, so a
      disconnect afterwards gives the session a disconnect alone gives; and
      a wallet that lists a non-empty first account leaves the session
      connected. */
  lemma DisconnectUndoesRequest(cfg: ChainConfig, provider: Provider, s: Session)
    requires provider.Injected?
    ensures DisconnectAccount(RequestAccount(cfg, provider, s).session) == DisconnectAccount(s)
    ensures (provider.env.accounts.Accounts? && |provider.env.accounts.list| > 0
             && provider.env.accounts.list[0] != "") ==> Connected(RequestAccount(cfg, provider, s).session)
  {
  }
}
